=== FILE: README.md ===
# Azure Storage wagon and `abs-upload` / `abs-download` goals — a Dafny model

This project models the Azure Blob Storage part of CloudStorageMaven. That part has four pieces:

- **The Maven wagon's connector** (`AzureStorageRepository`). It connects to one container and copies,
  puts, probes and lists blobs.
- **Credential selection** (`AzureClientFactory`).
- **The `abs-upload` goal** (`ABSUploadMojo`). It walks a local directory and turns every file
  path into a blob name.
- **The `abs-download` goal** (`ABSDownloadMojo`). It downloads one blob, or the concatenated
  prefix listings (`PrefixKeysIterator`, `KeyIteratorConcated`) of several.

The storage account is a value. `Account` maps container names to containers. A `Container` holds
blobs by name, plus the order in which a listing returns those names. Every operation takes the
account it talks to as an argument. The operations that write to it (`put` and the upload goal)
return the account they leave. A store call or local I/O call that can throw
becomes an input that says whether it throws (`Fault`, a boolean, or a set of failing local paths
or prefixes). Java's `null` is `Option.None`. Exceptions are `Result.Failure` values or the `error`
field of a run record, and each keeps the source's message text.

Modules, in dependency order:

- `Wrappers`: `Option` and `Result`.
- `PathStrings`: the `String`/`File` operations the code relies on.
  - `replace` removes every occurrence (`RemoveAll`); `replaceFirst("/", "")` is `RemoveFirstSeparator`.
  - `new File(parent, name)` is `Join`; `getName` is `BaseName`; the path `new File(p)` names is
    `FileName`.
- `FileSystem`: the local tree and `findFilesToUpload` (`Walk`).
- `BlobStore`: the account, unconditional uploads and prefix-filtered listings.
- `ClientFactory`: `create(AuthenticationInfo)`, `create()` and the connection string template.
  - It includes a settings parser, used only to show that the account-key connection string loses nothing.
- `StorageRepository`: the wagon connector.
- `PrefixKeys`: `PrefixKeysIterator`.
- `ConcatKeys`: `KeyIteratorConcated`.
- `MojoResults`: the goals' exceptions and local writes.
- `DownloadMojo` and `UploadMojo`: the two goals.

Quirks of the code that the model keeps:

- `list(path)` ignores `path` and lists the whole container (`StorageRepository.ListIgnoresPath`).
- `exists(name)` reports whether the *container* exists, so an absent blob "exists"
  (`StorageRepository.ExistsReportsAbsentBlob`).
- A blob that disappears between `copy`'s existence check and its read is reported as
  `ResourceDoesNotExistException("Could not download file from repo")`. It is not a transfer failure.
- Upload keys are not always unique. `replace` strips the upload root wherever it occurs, so two
  files can collide (`UploadMojo.KeysCanCollide`). Keys are guaranteed unique when the root occurs in
  file paths only as their prefix (`UploadMojo.WalkedKeysDistinct`).
- The multi-key download never uses the listed blob's name. Every listed item downloads the blob
  named `""` to `new File(downloadPath + "/")`. For a non-empty `downloadPath`, that names the same
  file as `new File(downloadPath)`, the single-key download's target, so every item overwrites that
  one file
  (`DownloadMojo.DownloadFile`, `PathStrings.FileNameIgnoresTrailingSeparator`). If the blob named
  `""` does not exist, the first listed item ends the goal with
  `MojoExecutionException("Could not download abs file ")`.

## Model

| member | source | states |
|---|---|---|
| ClientFactory.Create | AzureStorageWagon/src/main/java/com/gkatzioura/maven/cloud/abs/AzureClientFactory.java:34-68 | missing info fails with "Please provide storage account credentials"; otherwise exactly one credential kind is chosen: SAS iff the user name is null or empty, service principal iff a user name and a non-empty passphrase are given, account key otherwise |
| ClientFactory.CreateFieldMapping | AzureStorageWagon/src/main/java/com/gkatzioura/maven/cloud/abs/AzureClientFactory.java:40-67 | which authentication field feeds which credential field: SAS URL = password; client id, secret, tenant and endpoint = user name, password, passphrase and private key; account key = template (protocol, `AccountName=`, `AccountKey=`, endpoint suffix) filled with user name and password (a null password prints "null") |
| ClientFactory.CreateFromEnvironment | AzureStorageWagon/src/main/java/com/gkatzioura/maven/cloud/abs/AzureClientFactory.java:76-85 | fails, with the environment-variable message, exactly when the account name or key is unset; empty values are accepted; on success the connection string is what `String.format` makes of the template with the two values |
| ClientFactory.EnvironmentRoundTrip | AzureStorageWagon/src/main/java/com/gkatzioura/maven/cloud/abs/AzureClientFactory.java:76-84 | with both environment variables set, the fallback succeeds and the account name and key are read back from its connection string, provided neither contains `;` |
| ClientFactory.AccountKeyRoundTrip | AzureStorageWagon/src/main/java/com/gkatzioura/maven/cloud/abs/AzureClientFactory.java:30-65 | reading the filled account-key connection string back as `;`-separated settings recovers the account name and key, provided neither contains `;` |
| ClientFactory.SettingsOfFilledTemplate | AzureStorageWagon/src/main/java/com/gkatzioura/maven/cloud/abs/AzureClientFactory.java:30 | the filled template consists of exactly four settings: protocol, AccountName, AccountKey and endpoint suffix |
| ClientFactory.FillTemplateFormats | AzureStorageWagon/src/main/java/com/gkatzioura/maven/cloud/abs/AzureClientFactory.java:65 | the account-key connection string (also `create()`'s result, line 84) is what `String.format` makes of the template with the two arguments: formatting the template with them succeeds and yields `FillTemplate`'s string |
| ClientFactory.FormatTwo | AzureStorageWagon/src/main/java/com/gkatzioura/maven/cloud/abs/AzureClientFactory.java:30 | a template with two `%s` conversions and no other `%` formats to its literal text with the first argument in the first slot and the second in the second |
| ClientFactory.FormatLiteral | AzureStorageWagon/src/main/java/com/gkatzioura/maven/cloud/abs/AzureClientFactory.java:65 | `String.format` copies literal text free of `%` unchanged in front of whatever the rest of the template formats to |
| StorageRepository.NewRepository | AzureStorageWagon/src/main/java/com/gkatzioura/maven/cloud/abs/AzureStorageRepository.java:55-58 | a new connector names the given directory as its container and is not connected |
| StorageRepository.Connect | AzureStorageWagon/src/main/java/com/gkatzioura/maven/cloud/abs/AzureStorageRepository.java:60-69 | succeeds iff credentials are given and the client does not throw; the connected repository is bound to the construction-time container with the selected credential; failures are authentication errors with the factory's or "Provide valid credentials" message |
| StorageRepository.Disconnect | AzureStorageWagon/src/main/java/com/gkatzioura/maven/cloud/abs/AzureStorageRepository.java:151-154 | the container binding is kept |
| StorageRepository.ConnectThenDisconnect | AzureStorageWagon/src/main/java/com/gkatzioura/maven/cloud/abs/AzureStorageRepository.java:55-69 | connecting with credentials binds the directory named at construction; disconnect is idempotent and changes nothing |
| StorageRepository.Copy | AzureStorageWagon/src/main/java/com/gkatzioura/maven/cloud/abs/AzureStorageRepository.java:71-91 | succeeds iff no store or I/O fault and the blob exists, and then delivers the blob's bytes to the destination; an absent blob fails with its own name; a failing existence check, or a present blob whose read fails, gives "Could not download file from repo"; every failure is ResourceDoesNotExist |
| StorageRepository.CopyAbsent | AzureStorageWagon/src/main/java/com/gkatzioura/maven/cloud/abs/AzureStorageRepository.java:77-82 | copying an absent blob always fails, whatever happens after the existence check |
| StorageRepository.NewResourceAvailable | AzureStorageWagon/src/main/java/com/gkatzioura/maven/cloud/abs/AzureStorageRepository.java:93-109 | an absent blob is not new; a present one is new iff its last-modified time is strictly after the time stamp; a store error is ResourceDoesNotExist(name) |
| StorageRepository.Put | AzureStorageWagon/src/main/java/com/gkatzioura/maven/cloud/abs/AzureStorageRepository.java:111-126 | succeeds iff the transfer does not fail and the container exists; failures are TransferFailed(destination); containers are neither created nor removed and valid listings stay valid; every other container is unchanged; the bound container's blobs are the old ones with the destination set to the file's bytes, content type and upload time, and a new destination is listed last |
| StorageRepository.PutThenRead | AzureStorageWagon/src/main/java/com/gkatzioura/maven/cloud/abs/AzureStorageRepository.java:111-126 | after a put the destination exists, copy returns the file's bytes, it is newer than exactly the time stamps before the upload time; the same containers exist, every other container is unchanged, the bound container gains no name but the destination, and its other blobs are unchanged |
| StorageRepository.Exists | AzureStorageWagon/src/main/java/com/gkatzioura/maven/cloud/abs/AzureStorageRepository.java:129-139 | answers whether the bound container exists; a store error is TransferFailed(name) |
| StorageRepository.ExistsIgnoresResourceName | AzureStorageWagon/src/main/java/com/gkatzioura/maven/cloud/abs/AzureStorageRepository.java:132-134 | the answer is the same for every resource name |
| StorageRepository.ExistsReportsAbsentBlob | AzureStorageWagon/src/main/java/com/gkatzioura/maven/cloud/abs/AzureStorageRepository.java:129-134 | in an existing container, a blob that is not there is reported as existing |
| StorageRepository.List | AzureStorageWagon/src/main/java/com/gkatzioura/maven/cloud/abs/AzureStorageRepository.java:141-149 | succeeds iff the store call works and the container exists; in a valid container it names exactly the blobs present |
| StorageRepository.ListIgnoresPath | AzureStorageWagon/src/main/java/com/gkatzioura/maven/cloud/abs/AzureStorageRepository.java:141-144 | the result is the same for every path argument |
| BlobStore.PutBlob | AzureStorageWagon/src/main/java/com/gkatzioura/maven/cloud/abs/AzureStorageRepository.java:120 | an upload without request conditions creates or overwrites the blob, keeps the listing valid, and leaves an existing name's listing position alone |
| BlobStore.ListByPrefix | AzureStorageWagon/src/main/java/com/gkatzioura/maven/cloud/abs/plugin/PrefixKeysIterator.java:21 | a prefix-scoped listing holds exactly the listed names that start with the prefix |
| BlobStore.ListByPrefixDistinct | AzureStorageWagon/src/main/java/com/gkatzioura/maven/cloud/abs/plugin/PrefixKeysIterator.java:21 | a prefix-scoped listing names no blob twice |
| BlobStore.ListByEmptyPrefix | AzureStorageWagon/src/main/java/com/gkatzioura/maven/cloud/abs/plugin/PrefixKeysIterator.java:21 | the empty prefix lists the whole container in listing order |
| BlobStore.ListByPrefixAppend | AzureStorageWagon/src/main/java/com/gkatzioura/maven/cloud/abs/plugin/PrefixKeysIterator.java:21 | prefix filtering keeps the listing's order |
| PrefixKeys.Open | AzureStorageWagon/src/main/java/com/gkatzioura/maven/cloud/abs/plugin/PrefixKeysIterator.java:18-22 | construction succeeds iff the listing call works and the container exists; the fresh iterator holds exactly the container's names that start with the prefix |
| PrefixKeys.HasNext | AzureStorageWagon/src/main/java/com/gkatzioura/maven/cloud/abs/plugin/PrefixKeysIterator.java:24-27 | true iff items remain |
| PrefixKeys.Next | AzureStorageWagon/src/main/java/com/gkatzioura/maven/cloud/abs/plugin/PrefixKeysIterator.java:29-32 | yields the first remaining item and leaves the rest; NoSuchElement iff nothing remains; the listing itself is not changed |
| PrefixKeys.Remove | AzureStorageWagon/src/main/java/com/gkatzioura/maven/cloud/abs/plugin/PrefixKeysIterator.java:34-37 | always UnsupportedOperation |
| PrefixKeys.ForEachRemaining | AzureStorageWagon/src/main/java/com/gkatzioura/maven/cloud/abs/plugin/PrefixKeysIterator.java:39-42 | always UnsupportedOperation, whatever the action |
| PrefixKeys.DrainIsRemaining | AzureStorageWagon/src/main/java/com/gkatzioura/maven/cloud/abs/plugin/PrefixKeysIterator.java:24-32 | calling next while hasNext holds yields exactly the remaining items, in order, none skipped or repeated |
| PrefixKeys.OpenThenDrain | AzureStorageWagon/src/main/java/com/gkatzioura/maven/cloud/abs/plugin/PrefixKeysIterator.java:18-32 | a fresh iterator read to its end yields the prefix-filtered listing |
| ConcatKeys.HasNext | AzureStorageWagon/src/main/java/com/gkatzioura/maven/cloud/abs/plugin/download/ABSDownloadMojo.java:82 | true iff the current or a later inner iterator has an item |
| ConcatKeys.Remove | AzureStorageWagon/src/main/java/com/gkatzioura/maven/cloud/abs/plugin/download/ABSDownloadMojo.java:80 | the concatenated iterator refuses `remove` with UnsupportedOperation |
| ConcatKeys.Next | AzureStorageWagon/src/main/java/com/gkatzioura/maven/cloud/abs/plugin/download/ABSDownloadMojo.java:83 | yields the head of the concatenated remaining items and leaves their tail, skipping exhausted inner iterators; NoSuchElement iff nothing remains |
| ConcatKeys.FreshRemaining | AzureStorageWagon/src/main/java/com/gkatzioura/maven/cloud/abs/plugin/download/ABSDownloadMojo.java:77-80 | before anything is read, the concatenation holds each inner iterator's items in caller order, and as many as all of them together |
| ConcatKeys.ConcatenationOfTwo | AzureStorageWagon/src/main/java/com/gkatzioura/maven/cloud/abs/plugin/download/ABSDownloadMojo.java:77-85 | two fresh iterators yield the first's items, then the second's, with no interleaving |
| DownloadMojo.CreateFullFilePath | AzureStorageWagon/src/main/java/com/gkatzioura/maven/cloud/abs/plugin/download/ABSDownloadMojo.java:153-156 | the download path, one separator, then the key, each recoverable from the result |
| DownloadMojo.IsDirectory | AzureStorageWagon/src/main/java/com/gkatzioura/maven/cloud/abs/plugin/download/ABSDownloadMojo.java:158-167 | the directory probe answers no for every container and key |
| PathStrings.FileName | AzureStorageWagon/src/main/java/com/gkatzioura/maven/cloud/abs/plugin/download/ABSDownloadMojo.java:125 | the path `new File(p)` names: the longest prefix of `p` that does not end in a separator, stopping at a single character |
| PathStrings.FileNameIgnoresTrailingSeparator | AzureStorageWagon/src/main/java/com/gkatzioura/maven/cloud/abs/plugin/download/ABSDownloadMojo.java:125 | for a non-empty path, appending a separator does not change which file it names, so `new File(createFullFilePath(""))` is `new File(downloadPath)` (line 93) |
| DownloadMojo.DownloadSingleFile | AzureStorageWagon/src/main/java/com/gkatzioura/maven/cloud/abs/plugin/download/ABSDownloadMojo.java:92-118 | succeeds iff nothing fails and the blob exists, and then writes its bytes to the file the download path names; an absent blob is "Could not find blob"; every failure is a MojoExecutionException |
| DownloadMojo.DownloadFile | AzureStorageWagon/src/main/java/com/gkatzioura/maven/cloud/abs/plugin/download/ABSDownloadMojo.java:120-151 | the listed item is not consulted: it succeeds iff the blob with the empty name exists, writing it to the file `new File(downloadPath + "/")` names, which for a non-empty download path is the single download's target; otherwise "Could not download abs file " |
| DownloadMojo.OpenAll | AzureStorageWagon/src/main/java/com/gkatzioura/maven/cloud/abs/plugin/download/ABSDownloadMojo.java:77-79 | one prefix iterator per key, in key order, stopping at the first listing that throws; no failure iff there are no keys or the container exists and no listing fails |
| DownloadMojo.OpenedItems | AzureStorageWagon/src/main/java/com/gkatzioura/maven/cloud/abs/plugin/download/ABSDownloadMojo.java:77-80 | the concatenated iterator starts with every prefix's listing, one after another in key order |
| DownloadMojo.DownloadAll | AzureStorageWagon/src/main/java/com/gkatzioura/maven/cloud/abs/plugin/download/ABSDownloadMojo.java:82-85 | takes every item in order and writes once per item when the empty-named blob exists; otherwise stops at the first item with its exception |
| DownloadMojo.Execute | AzureStorageWagon/src/main/java/com/gkatzioura/maven/cloud/abs/plugin/download/ABSDownloadMojo.java:66-90 | one key downloads that key; otherwise every key is a prefix: a failing listing ends the run with MojoFailure "Could not get container" and nothing downloaded, else the concatenated listings are downloaded item by item |
| FileSystem.WalkYieldsExactlyTheFiles | AzureStorageWagon/src/main/java/com/gkatzioura/maven/cloud/abs/plugin/upload/ABSUploadMojo.java:81-103 | the walk of a well-formed tree yields precisely its regular files, each exactly once, and never a directory |
| FileSystem.Walk | AzureStorageWagon/src/main/java/com/gkatzioura/maven/cloud/abs/plugin/upload/ABSUploadMojo.java:81-103 | every path the walk yields extends the walked path |
| FileSystem.WalkMembership | AzureStorageWagon/src/main/java/com/gkatzioura/maven/cloud/abs/plugin/upload/ABSUploadMojo.java:81-103 | a file is yielded iff the tree holds it at that path |
| FileSystem.WalkNoDuplicates | AzureStorageWagon/src/main/java/com/gkatzioura/maven/cloud/abs/plugin/upload/ABSUploadMojo.java:86-97 | no path is yielded twice |
| FileSystem.FileIsNotDir | AzureStorageWagon/src/main/java/com/gkatzioura/maven/cloud/abs/plugin/upload/ABSUploadMojo.java:90-95 | no yielded path is a directory of the tree |
| FileSystem.FileAtUnder | AzureStorageWagon/src/main/java/com/gkatzioura/maven/cloud/abs/plugin/upload/ABSUploadMojo.java:89-95 | every file found lies at or under the walked path |
| FileSystem.WalkEntriesAppend | AzureStorageWagon/src/main/java/com/gkatzioura/maven/cloud/abs/plugin/upload/ABSUploadMojo.java:89-96 | a directory's result is its entries' results concatenated in listing order, whole sub-trees included |
| FileSystem.WalkOfFile | AzureStorageWagon/src/main/java/com/gkatzioura/maven/cloud/abs/plugin/upload/ABSUploadMojo.java:98-100 | a path that is not a directory yields itself |
| FileSystem.EmptyDirectoryYieldsNothing | AzureStorageWagon/src/main/java/com/gkatzioura/maven/cloud/abs/plugin/upload/ABSUploadMojo.java:86-97 | an empty directory yields no file |
| PathStrings.UnderDistinctSiblings | AzureStorageWagon/src/main/java/com/gkatzioura/maven/cloud/abs/plugin/upload/ABSUploadMojo.java:89-95 | no path lies under two differently named entries of one directory |
| PathStrings.BaseNameOfJoin | AzureStorageWagon/src/main/java/com/gkatzioura/maven/cloud/abs/plugin/upload/ABSUploadMojo.java:143 | the name of a child path is the entry name it was built from |
| PathStrings.RemoveAllAbsent | AzureStorageWagon/src/main/java/com/gkatzioura/maven/cloud/abs/plugin/upload/ABSUploadMojo.java:117 | replacing a text that does not occur changes nothing |
| PathStrings.RemoveRootPrefix | AzureStorageWagon/src/main/java/com/gkatzioura/maven/cloud/abs/plugin/upload/ABSUploadMojo.java:115-117 | when the root occurs only as the prefix of root + "/" + rel, replacing it leaves "/" + rel |
| PathStrings.RemoveAll | AzureStorageWagon/src/main/java/com/gkatzioura/maven/cloud/abs/plugin/upload/ABSUploadMojo.java:115-117 | `replace(p, "")`: an empty pattern changes nothing, and the result is never longer than the input |
| PathStrings.RemoveAllOnlyRemoves | AzureStorageWagon/src/main/java/com/gkatzioura/maven/cloud/abs/plugin/upload/ABSUploadMojo.java:115-117 | `replace(p, "")` only removes characters: every character of the result occurs in the input at least as often |
| PathStrings.BaseName | AzureStorageWagon/src/main/java/com/gkatzioura/maven/cloud/abs/plugin/upload/ABSUploadMojo.java:143 | `getName`: the longest suffix of the path without a separator, preceded by a separator unless it is the whole path |
| UploadMojo.GenerateKeyName | AzureStorageWagon/src/main/java/com/gkatzioura/maven/cloud/abs/plugin/upload/ABSUploadMojo.java:105-122 | with a key, the result starts with that key |
| UploadMojo.KeyOfNestedPath | AzureStorageWagon/src/main/java/com/gkatzioura/maven/cloud/abs/plugin/upload/ABSUploadMojo.java:105-122 | for root + "/" + rel where rel does not repeat the root, the key is rel, or key + "/" + rel with a key prefix (exactly one separator) |
| UploadMojo.KeysCanCollide | AzureStorageWagon/src/main/java/com/gkatzioura/maven/cloud/abs/plugin/upload/ABSUploadMojo.java:115-118 | under root /a, the different files /a/b/a/c and /a/b/c both receive the key b/c |
| UploadMojo.NestedKeysDiffer | AzureStorageWagon/src/main/java/com/gkatzioura/maven/cloud/abs/plugin/upload/ABSUploadMojo.java:105-122 | different paths below the root that do not repeat it receive different keys |
| UploadMojo.WalkedKeysDistinct | AzureStorageWagon/src/main/java/com/gkatzioura/maven/cloud/abs/plugin/upload/ABSUploadMojo.java:66-70 | when the root occurs in walked paths only as their prefix, the files of one directory upload receive pairwise distinct keys, with or without a key prefix |
| UploadMojo.UploadExample | AzureStorageWagon/src/main/java/com/gkatzioura/maven/cloud/abs/plugin/upload/ABSUploadMojo.java:66-69 | directory /a holding b.txt and c/d.txt is uploaded without a key as b.txt then c/d.txt |
| UploadMojo.KeyIfNull | AzureStorageWagon/src/main/java/com/gkatzioura/maven/cloud/abs/plugin/upload/ABSUploadMojo.java:141-147 | the given key, or else the path's last segment: no separator in it, a suffix of the path right after a separator |
| UploadMojo.UploadFileToStorage | AzureStorageWagon/src/main/java/com/gkatzioura/maven/cloud/abs/plugin/upload/ABSUploadMojo.java:124-135 | succeeds iff the local file can be read and sent and the container exists; the blob is then created or overwritten with the file's bytes, content type and upload time, a new name is listed after the existing ones, an existing name keeps its place, and nothing else changes; failures are "Could not upload file " + the file's name |
| UploadMojo.UploadStores | AzureStorageWagon/src/main/java/com/gkatzioura/maven/cloud/abs/plugin/upload/ABSUploadMojo.java:124-135 | a successful upload stores exactly that one upload: its blob, its name appended to the listing if new, and every other blob, listing entry and container as before |
| UploadMojo.StoredStep | AzureStorageWagon/src/main/java/com/gkatzioura/maven/cloud/abs/plugin/upload/ABSUploadMojo.java:68-71 | consecutive uploads compose: the last upload to a name wins, untouched blobs keep their content, and the listing gains each new name once, in upload order |
| UploadMojo.AppliedStores | AzureStorageWagon/src/main/java/com/gkatzioura/maven/cloud/abs/plugin/upload/ABSUploadMojo.java:68-71 | applying a run of uploads one after another leaves the container holding, under each key, the last upload to it, with every other blob untouched, and its listing followed by each new key once, in the order of its first upload |
| UploadMojo.UploadAll | AzureStorageWagon/src/main/java/com/gkatzioura/maven/cloud/abs/plugin/upload/ABSUploadMojo.java:68-71 | the uploads made are a prefix of the plan; all of it iff no exception; an exception names the first file that could not be uploaded; the account equals the uploads made applied one after another, so it holds each of them, the last one to a name winning |
| UploadMojo.DistinctKeysKeepEveryFile | AzureStorageWagon/src/main/java/com/gkatzioura/maven/cloud/abs/plugin/upload/ABSUploadMojo.java:130 | with pairwise distinct keys, every uploaded file's bytes are stored under its own key |
| UploadMojo.DirectoryUploadKeepsEveryFile | AzureStorageWagon/src/main/java/com/gkatzioura/maven/cloud/abs/plugin/upload/ABSUploadMojo.java:65-71 | after a directory upload without an exception, every walked file's bytes are in the container under its generated key, given the prefix-only condition |
| UploadMojo.Execute | AzureStorageWagon/src/main/java/com/gkatzioura/maven/cloud/abs/plugin/upload/ABSUploadMojo.java:60-79 | a directory uploads its walked files in walk order under generated keys, stopping at the first failure; anything else is one upload under keyIfNull; nothing at the path fails; every failure is a MojoExecutionException |

## Left out

- Azure SDK clients, builders, HTTP, retries and `Context`: the store is the abstract `Account`. A
  store call that throws is an input flag, not a modelled network failure.
- The bytes in transit: streams, `IOUtils.copy`, `TransferProgress` callbacks and partially
  written files. A copy either delivers the whole blob or fails.
- `mkdirs` of the download's parent directory, and the local file system that downloads write
  into: a download returns the write it makes (`Write`, `Download`) instead of changing a file tree.
- `ContentTypeResolver` is not part of this model. Its answer is the `contentType` function
  parameter.
- `KeyIteratorConcated` is not part of this model. It is modelled as reading its inner iterators
  one after another, each to its end, in the order given, and to refuse `remove`, as
  `java.util.Iterator`'s default `remove` does.
- `PrefixKeysIterator`'s paging, its one-minute listing timeout, and a later page's failure while
  iterating: a listing is fetched whole when the iterator is made, and it either succeeds or throws
  there.
- The service's lexicographic listing order: a listing returns names in an abstract order, with
  new names appended.
- The service's blob-name rules: the model accepts any name, including the empty one the multi-key
  download asks for.
- Logging.
- `File.getAbsolutePath` and host path conventions. Paths are absolute, `/`-separated and
  normalised: no `.`/`..`, no trailing separator except the root `/`, no symbolic links.
  `UploadMojo.Execute` takes the goal's path in that form.
- `listFiles()` returning `null` for an unreadable directory: directories are always readable.
- `System.getenv`, the wall clock and the authentication fields are parameters
  (`CreateFromEnvironment`'s arguments, `now`, `AuthenticationInfo`).
- The goals' constructors, which call `create()` and pass the connection string to `.endpoint()`,
  and the failure that causes. Each goal's `execute` takes the account directly.
- The `NullPointerException` of calling a connector method before `connect`: every
  `StorageRepository` operation except connect and disconnect requires a connected repository.
- Local write failures in the multi-key download: `DownloadFile` writes whenever the blob exists.
- `String.format` conversions other than `%s`: the template uses no other, and `Format` copies
  any other character as it is.
- `new File`'s collapsing of repeated separators: `FileName` only drops trailing ones.
- One `now` stamps every upload of a directory run, where the service stamps each upload
  separately. No proved property compares the time stamps of two uploads.
- Listing failures of the multi-key download are keyed by prefix text (`failingListings`), so a
  prefix that appears twice in `keys` fails both times or neither. No proved property depends on
  a repeated prefix.
- StorageRepository.List: its contract states the names present only for a valid container, not
  the listing order.
- UploadMojo.GenerateKeyName: its own contract states only the key prefix. The value of the key is
  stated by `UploadMojo.KeyOfNestedPath` (under the root-only-as-prefix condition) and
  `UploadMojo.KeysCanCollide` (outside it).

=== FILE: blob_store.dfy ===
/** The storage account as the plugins see it: containers of named blobs. The
    service itself is abstract; only its observable contents are modelled. */
module BlobStore {
  import opened FileSystem
  import opened PathStrings

  /** A stored blob: its bytes, the content type set when it was uploaded, and its
      last-modified time in epoch milliseconds. */
  datatype Blob = Blob(content: Content, contentType: string, lastModified: int)

  /** A container: blobs by name, and the order in which a listing returns their
      names. */
  datatype Container = Container(blobs: map<string, Blob>, listing: seq<string>) {

    /** The listing names every blob exactly once. */
    predicate Valid() {
      && Distinct(listing)
      && (set n | n in listing) == blobs.Keys
    }
  }

  /** Containers by name; a name absent from the map is a container that does not
      exist. */
  type Account = map<string, Container>

  /** Where a store round trip fails, if it does. */
  datatype Fault =
    | NoFault
      /** the existence check throws `BlobStorageException` */
    | CheckFails
      /** reading the blob throws `BlobStorageException` (it may have vanished
          after the check) */
    | ReadFails
      /** the local file cannot be written (`IOException`) */
    | WriteFails

  /** `BlobClient.exists()`: a blob in a container that does not exist does not
      exist either. */
  predicate BlobExists(account: Account, container: string, name: string) {
    container in account && name in account[container].blobs
  }

  /** An unconditional upload: the blob is created or overwritten. A new name is
      listed after the existing ones. */
  function PutBlob(c: Container, name: string, blob: Blob): (r: Container)
    ensures c.Valid() ==> r.Valid()
    ensures r.blobs == c.blobs[name := blob]
    ensures name in c.blobs ==> r.listing == c.listing
    ensures name !in c.blobs ==> r.listing == c.listing + [name]
  {
    if name in c.blobs then Container(c.blobs[name := blob], c.listing)
    else
      var r := Container(c.blobs[name := blob], c.listing + [name]);
      assert (set n | n in r.listing) == (set n | n in c.listing) + {name};
      r
  }

  /** A listing scoped to `prefix`: the listed names that start with it, in
      listing order. */
  function ListByPrefix(listing: seq<string>, prefix: string): (r: seq<string>)
    ensures |r| <= |listing|
    ensures forall n :: n in r <==> n in listing && prefix <= n
  {
    if |listing| == 0 then []
    else (if prefix <= listing[0] then [listing[0]] else []) + ListByPrefix(listing[1..], prefix)
  }

  /** The prefix filter keeps the listing's order: filtering a concatenation
      filters each part. */
  lemma {:induction false} ListByPrefixAppend(xs: seq<string>, ys: seq<string>, prefix: string)
    ensures ListByPrefix(xs + ys, prefix) == ListByPrefix(xs, prefix) + ListByPrefix(ys, prefix)
    decreases |xs|
  {
    if |xs| == 0 {
      assert xs + ys == ys;
    } else {
      assert (xs + ys)[0] == xs[0];
      assert (xs + ys)[1..] == xs[1..] + ys;
      ListByPrefixAppend(xs[1..], ys, prefix);
    }
  }

  /** The empty prefix selects the whole listing. */
  lemma {:induction false} ListByEmptyPrefix(listing: seq<string>)
    ensures ListByPrefix(listing, "") == listing
    decreases |listing|
  {
    if |listing| > 0 {
      ListByEmptyPrefix(listing[1..]);
      assert [listing[0]] + listing[1..] == listing;
    }
  }

  /** A filtered listing names no blob twice. */
  lemma {:induction false} ListByPrefixDistinct(listing: seq<string>, prefix: string)
    requires Distinct(listing)
    ensures Distinct(ListByPrefix(listing, prefix))
    decreases |listing|
  {
    if |listing| > 0 {
      ListByPrefixDistinct(listing[1..], prefix);
      var tail := ListByPrefix(listing[1..], prefix);
      assert listing[0] !in listing[1..] by {
        forall k | 0 <= k < |listing[1..]|
          ensures listing[1..][k] != listing[0]
        {
          assert listing[1..][k] == listing[k + 1];
        }
      }
      var r := ListByPrefix(listing, prefix);
      forall i, j | 0 <= i < j < |r|
        ensures r[i] != r[j]
      {
        if prefix <= listing[0] {
          assert r == [listing[0]] + tail;
          if i == 0 {
            assert r[j] == tail[j - 1] && tail[j - 1] in tail;
          } else {
            assert r[i] == tail[i - 1] && r[j] == tail[j - 1];
          }
        } else {
          assert r == tail;
        }
      }
    }
  }
}

=== FILE: client_factory.dfy ===
/** Credential selection (`AzureClientFactory`): which of the three credential
    kinds a set of wagon authentication fields selects, and the account-key
    connection string. The service clients the Java code builds from them are
    represented by the selected `Credential` alone. */
module ClientFactory {
  import opened Wrappers

  /** Maven's `AuthenticationInfo`; `None` is a field left `null`. */
  datatype AuthenticationInfo = AuthenticationInfo(
    userName: Option<string>,
    password: Option<string>,
    passphrase: Option<string>,
    privateKey: Option<string>)

  /** The credential kinds, one per branch of `create(AuthenticationInfo)`. */
  datatype Credential =
    | SharedAccessSignature(endpoint: Option<string>)
    | ServicePrincipal(clientId: string, clientSecret: Option<string>, tenantId: string, endpoint: Option<string>)
    | AccountKey(connectionString: string)

  datatype AuthenticationException = AuthenticationException(message: string)

  /** The settings of the connection string template, and the names of the two
      settings it fills in. */
  const ProtocolSetting: string := "DefaultEndpointsProtocol=https"
  const AccountNamePrefix: string := "AccountName="
  const AccountKeyPrefix: string := "AccountKey="
  const SuffixSetting: string := "EndpointSuffix=core.windows.net"

  /** The literal text of the connection string template around its two `%s`
      conversions. */
  const TemplateHead: string := ProtocolSetting + ";" + AccountNamePrefix
  const TemplateMiddle: string := ";" + AccountKeyPrefix
  const TemplateTail: string := ";" + SuffixSetting

  /** `DefaultEndpointsProtocol=https;AccountName=%s;AccountKey=%s;EndpointSuffix=core.windows.net` */
  const ConnectionStringTemplate: string := TemplateHead + "%s" + TemplateMiddle + "%s" + TemplateTail

  const MissingCredentials: string := "Please provide storage account credentials"
  const MissingEnvironmentCredentials: string :=
    "Please provide storage account credentials using environmental variables"

  /** `null` or `isEmpty()`. */
  predicate NullOrEmpty(s: Option<string>) {
    s.None? || |s.value| == 0
  }

  /** How `%s` renders a string argument: `null` prints as the text "null". */
  function FormatArg(s: Option<string>): (r: string)
    ensures s.Some? ==> r == s.value
  {
    match s
    case Some(v) => v
    case None => "null"
  }

  /** `a` in front of a formatted text; a failed format stays failed. */
  function Prefixed(a: string, r: Option<string>): Option<string> {
    if r.Some? then Some(a + r.value) else None
  }

  /** `String.format` with string arguments and the `%s` conversion only: each
      `%s` is replaced by the next argument, every other character is copied,
      and surplus arguments are ignored. Running out of arguments is Java's
      `MissingFormatArgumentException`, here `None`. */
  function Format(template: string, args: seq<string>): (r: Option<string>)
    ensures '%' !in template ==> r == Some(template)
    decreases |template|
  {
    if |template| == 0 then Some([])
    else if |template| > 1 && template[0] == '%' && template[1] == 's' then
      if |args| == 0 then None else Prefixed(args[0], Format(template[2..], args[1..]))
    else
      assert '%' !in template ==> [template[0]] + template[1..] == template;
      Prefixed([template[0]], Format(template[1..], args))
  }

  /** Literal text in front of the rest of a template is copied as it is. */
  lemma {:induction false} FormatLiteral(a: string, b: string, args: seq<string>)
    requires '%' !in a
    ensures Format(a + b, args) == Prefixed(a, Format(b, args))
    decreases |a|
  {
    if |a| > 0 {
      assert (a + b)[1..] == a[1..] + b;
      FormatLiteral(a[1..], b, args);
      assert [a[0]] + (a[1..]) == a;
      if Format(b, args).Some? {
        assert [a[0]] + (a[1..] + Format(b, args).value) == a + Format(b, args).value;
      }
    } else {
      assert a + b == b;
      if Format(b, args).Some? {
        assert a + Format(b, args).value == Format(b, args).value;
      }
    }
  }

  /** A leading `%s` takes the first argument. */
  lemma FormatConversion(b: string, x: string, rest: seq<string>)
    ensures Format("%s" + b, [x] + rest) == Prefixed(x, Format(b, rest))
  {
    assert ("%s" + b)[2..] == b;
    assert ([x] + rest)[1..] == rest;
  }

  lemma NoConversionInFixedText()
    ensures '%' !in TemplateHead && '%' !in TemplateMiddle && '%' !in TemplateTail
  {
  }

  /** A template with two conversions, filled by `x` and `y`. */
  lemma FormatTwo(head: string, middle: string, tail: string, x: string, y: string)
    requires '%' !in head && '%' !in middle && '%' !in tail
    ensures Format(head + "%s" + middle + "%s" + tail, [x, y]) == Some(head + x + middle + y + tail)
  {
    var inner := "%s" + tail;
    var rest := "%s" + (middle + inner);
    TwoConversionsShape(head, middle, tail);
    FormatConversion(tail, y, []);
    assert Format(inner, [y]) == Some(y + tail) by {
      assert [y] + [] == [y];
    }
    FormatLiteral(middle, inner, [y]);
    assert Format(middle + inner, [y]) == Some(middle + (y + tail));
    FormatConversion(middle + inner, x, [y]);
    assert Format(rest, [x, y]) == Some(x + (middle + (y + tail))) by {
      assert [x] + [y] == [x, y];
    }
    FormatLiteral(head, rest, [x, y]);
    ConcatFive(head, x, middle, y, tail);
  }

  lemma TwoConversionsShape(head: string, middle: string, tail: string)
    ensures head + "%s" + middle + "%s" + tail == head + ("%s" + (middle + ("%s" + tail)))
  {
  }

  lemma ConcatFive(a: string, b: string, c: string, d: string, e: string)
    ensures a + (b + (c + (d + e))) == a + b + c + d + e
  {
  }

  /** The connection string template with its two conversions filled by `x` and `y`. */
  lemma TemplateFormat(x: string, y: string)
    ensures Format(ConnectionStringTemplate, [x, y]) == Some(TemplateHead + x + TemplateMiddle + y + TemplateTail)
  {
    NoConversionInFixedText();
    FormatTwo(TemplateHead, TemplateMiddle, TemplateTail, x, y);
  }

  /** `String.format(ConnectionStringTemplate, name, key)`: each `%s` of the
      template replaced by the next argument. */
  function FillTemplate(name: Option<string>, key: Option<string>): string {
    TemplateHead + FormatArg(name) + TemplateMiddle + FormatArg(key) + TemplateTail
  }

  /** The filled template is what `String.format` makes of the template and the
      two arguments, each rendered as `%s` renders it. */
  lemma FillTemplateFormats(name: Option<string>, key: Option<string>)
    ensures Format(ConnectionStringTemplate, [FormatArg(name), FormatArg(key)]) == Some(FillTemplate(name, key))
  {
    TemplateFormat(FormatArg(name), FormatArg(key));
  }

  /** `create(AuthenticationInfo)`: missing information is rejected; an empty user
      name means the password is a SAS URL; a user name with a passphrase means a
      service principal; anything else is an account name and key. */
  function Create(info: Option<AuthenticationInfo>): (r: Result<Credential, AuthenticationException>)
    ensures r.Failure? <==> info.None?
    ensures r.Failure? ==> r.error.message == MissingCredentials
    ensures r.Success? ==>
      (r.value.SharedAccessSignature? <==> NullOrEmpty(info.value.userName))
    ensures r.Success? ==>
      (r.value.ServicePrincipal? <==> !NullOrEmpty(info.value.userName) && !NullOrEmpty(info.value.passphrase))
    ensures r.Success? ==>
      (r.value.AccountKey? <==> !NullOrEmpty(info.value.userName) && NullOrEmpty(info.value.passphrase))
  {
    match info
    case None => Failure(AuthenticationException(MissingCredentials))
    case Some(auth) =>
      if NullOrEmpty(auth.userName) then
        Success(SharedAccessSignature(auth.password))
      else if auth.passphrase.Some? && |auth.passphrase.value| > 0 then
        Success(ServicePrincipal(auth.userName.value, auth.password, auth.passphrase.value, auth.privateKey))
      else
        Success(AccountKey(FillTemplate(auth.userName, auth.password)))
  }

  /** `create()`: the connection string from the `ACCOUNT_NAME` and `ACCOUNT_KEY`
      environment values; an unset value is rejected, an empty one is not. */
  function CreateFromEnvironment(accountName: Option<string>, accountKey: Option<string>): (r: Result<string, AuthenticationException>)
    ensures r.Failure? <==> accountName.None? || accountKey.None?
    ensures r.Failure? ==> r.error.message == MissingEnvironmentCredentials
    ensures r.Success? ==> Format(ConnectionStringTemplate, [FormatArg(accountName), FormatArg(accountKey)]) == Some(r.value)
  {
    if accountName.None? || accountKey.None? then
      Failure(AuthenticationException(MissingEnvironmentCredentials))
    else
      FillTemplateFormats(accountName, accountKey);
      Success(FillTemplate(accountName, accountKey))
  }

  // ---------------------------------------------------------------------------
  // The connection string
  // ---------------------------------------------------------------------------

  /** The credential the three-way selection makes, written out field by field:
      the SAS URL is the password; the service principal takes client id, secret,
      tenant and endpoint from user name, password, passphrase and private key;
      the account key form fills the template with user name and password. */
  lemma CreateFieldMapping(auth: AuthenticationInfo)
    ensures var r := Create(Some(auth));
      && r.Success?
      && (NullOrEmpty(auth.userName) ==> r.value == SharedAccessSignature(auth.password))
      && (!NullOrEmpty(auth.userName) && !NullOrEmpty(auth.passphrase) ==>
            r.value == ServicePrincipal(auth.userName.value, auth.password, auth.passphrase.value, auth.privateKey))
      && (!NullOrEmpty(auth.userName) && NullOrEmpty(auth.passphrase) ==>
            r.value == AccountKey(TemplateHead + auth.userName.value + TemplateMiddle + FormatArg(auth.password) + TemplateTail))
  {
  }

  // ---------------------------------------------------------------------------
  // Reading a connection string back: `;`-separated `name=value` settings
  // ---------------------------------------------------------------------------

  function IndexOf(s: string, c: char): (i: nat)
    requires c in s
    ensures i < |s| && s[i] == c && c !in s[..i]
  {
    if s[0] == c then 0 else 1 + IndexOf(s[1..], c)
  }

  /** The `;`-separated settings of a connection string. */
  function Settings(s: string): (r: seq<string>)
    ensures |r| > 0
    decreases |s|
  {
    if ';' !in s then [s]
    else
      var i := IndexOf(s, ';');
      [s[..i]] + Settings(s[i + 1..])
  }

  /** The value of the first setting `name=value` in the list. */
  function Setting(settings: seq<string>, name: string): Option<string> {
    if |settings| == 0 then None
    else if name + "=" <= settings[0] then Some(settings[0][|name| + 1..])
    else Setting(settings[1..], name)
  }

  /** Account name and key as a connection string parser reads them. */
  function AccountOf(connectionString: string): Option<(string, string)> {
    var settings := Settings(connectionString);
    match (Setting(settings, "AccountName"), Setting(settings, "AccountKey"))
    case (Some(n), Some(k)) => Some((n, k))
    case _ => None
  }

  lemma SettingsCons(a: string, b: string)
    requires ';' !in a
    ensures Settings(a + ";" + b) == [a] + Settings(b)
  {
    var s := a + ";" + b;
    assert s[|a|] == ';';
    var i := IndexOf(s, ';');
    assert s[..i] == a[..i];
    assert i == |a|;
    assert s[..|a|] == a && s[|a| + 1..] == b;
  }

  /** Settings written out with `;` between them. */
  function JoinSettings(parts: seq<string>): string
    requires |parts| > 0
  {
    if |parts| == 1 then parts[0] else parts[0] + ";" + JoinSettings(parts[1..])
  }

  /** Splitting at `;` undoes joining with `;` when no part contains one. */
  lemma {:induction false} SettingsOfJoin(parts: seq<string>)
    requires |parts| > 0 && forall i :: 0 <= i < |parts| ==> ';' !in parts[i]
    ensures Settings(JoinSettings(parts)) == parts
  {
    if |parts| > 1 {
      var rest := JoinSettings(parts[1..]);
      assert JoinSettings(parts) == parts[0] + ";" + rest;
      SettingsCons(parts[0], rest);
      SettingsOfJoin(parts[1..]);
      assert [parts[0]] + parts[1..] == parts;
    }
  }

  /** The settings of a filled account-key connection string. */
  function AccountKeySettings(name: string, key: string): seq<string> {
    [ProtocolSetting, AccountNamePrefix + name, AccountKeyPrefix + key, SuffixSetting]
  }

  lemma FillTemplateJoinsSettings(name: string, key: string)
    ensures FillTemplate(Some(name), Some(key)) == JoinSettings(AccountKeySettings(name, key))
  {
    var parts := AccountKeySettings(name, key);
    assert JoinSettings(parts[3..]) == parts[3];
    assert JoinSettings(parts[2..]) == parts[2] + ";" + parts[3];
    assert JoinSettings(parts[1..]) == parts[1] + ";" + (parts[2] + ";" + parts[3]);
  }

  lemma NoSeparatorInFixedSettings()
    ensures ';' !in ProtocolSetting && ';' !in SuffixSetting
    ensures ';' !in AccountNamePrefix && ';' !in AccountKeyPrefix
  {
  }

  lemma SettingsOfFilledTemplate(name: string, key: string)
    requires ';' !in name && ';' !in key
    ensures Settings(FillTemplate(Some(name), Some(key))) == AccountKeySettings(name, key)
  {
    FillTemplateJoinsSettings(name, key);
    NoSeparatorInFixedSettings();
    var parts := AccountKeySettings(name, key);
    assert parts[1] == AccountNamePrefix + name && parts[2] == AccountKeyPrefix + key;
    assert ';' !in parts[1] && ';' !in parts[2];
    SettingsOfJoin(parts);
  }

  lemma AccountKeySettingValues(name: string, key: string)
    ensures Setting(AccountKeySettings(name, key), "AccountName") == Some(name)
    ensures Setting(AccountKeySettings(name, key), "AccountKey") == Some(key)
  {
    var settings := AccountKeySettings(name, key);
    var p1, p2 := settings[1], settings[2];
    assert settings[0][0] == 'D';
    assert !("AccountName=" <= settings[0]);
    assert "AccountName=" <= p1 && p1[|"AccountName"| + 1..] == name;
    assert !("AccountKey=" <= settings[0]);
    assert !("AccountKey=" <= p1) by {
      assert p1[7] == 'N';
    }
    assert "AccountKey=" <= p2 && p2[|"AccountKey"| + 1..] == key;
    assert settings[1..][1..] == settings[2..];
    assert Setting(settings, "AccountKey") == Setting(settings[1..], "AccountKey");
    assert Setting(settings[1..], "AccountKey") == Setting(settings[2..], "AccountKey");
    assert Setting(settings[2..], "AccountKey") == Some(key);
  }

  /** The account-key connection string is lossless: a parser recovers the user
      name and password from it, provided neither contains the `;` separator. */
  lemma AccountKeyRoundTrip(name: string, key: string)
    requires ';' !in name && ';' !in key
    ensures AccountOf(FillTemplate(Some(name), Some(key))) == Some((name, key))
  {
    SettingsOfFilledTemplate(name, key);
    AccountKeySettingValues(name, key);
  }

  /** `create()` loses nothing either: the environment's account name and key
      are read back from the connection string it returns, provided neither
      contains `;`. */
  lemma EnvironmentRoundTrip(name: string, key: string)
    requires ';' !in name && ';' !in key
    ensures CreateFromEnvironment(Some(name), Some(key)).Success?
    ensures AccountOf(CreateFromEnvironment(Some(name), Some(key)).value) == Some((name, key))
  {
    AccountKeyRoundTrip(name, key);
  }
}

=== FILE: concat_keys.dfy ===
/** `KeyIteratorConcated`, the iterator the download goal draws from. That class
    is not part of this model; it is assumed to read its inner iterators one after
    another, in the order given, each to its end, and to refuse `remove`, as
    `java.util.Iterator`'s default `remove` does. */
module ConcatKeys {
  import opened Wrappers
  import opened PrefixKeys

  datatype KeyIteratorConcated = KeyIteratorConcated(inners: seq<PrefixKeysIterator>) {
    predicate Valid() {
      forall i :: 0 <= i < |inners| ==> inners[i].Valid()
    }
  }

  /** The concatenation of the inner iterators' remaining items. */
  function Remaining(c: KeyIteratorConcated): seq<BlobItem>
    requires c.Valid()
    decreases |c.inners|
  {
    if |c.inners| == 0 then []
    else PrefixKeys.Remaining(c.inners[0]) + Remaining(KeyIteratorConcated(c.inners[1..]))
  }

  /** True while the current or a later inner iterator has an item left. */
  function HasNext(c: KeyIteratorConcated): (b: bool)
    requires c.Valid()
    ensures b <==> |Remaining(c)| > 0
    decreases |c.inners|
  {
    |c.inners| > 0 && (PrefixKeys.HasNext(c.inners[0]) || HasNext(KeyIteratorConcated(c.inners[1..])))
  }

  /** Take the next item of the first inner iterator that has one; exhausted inner
      iterators are passed over. */
  function Next(c: KeyIteratorConcated): (r: Result<(BlobItem, KeyIteratorConcated), IteratorError>)
    requires c.Valid()
    ensures r.Success? <==> |Remaining(c)| > 0
    ensures r.Failure? ==> r.error == NoSuchElement
    ensures r.Success? ==>
      && r.value.1.Valid()
      && r.value.0 == Remaining(c)[0]
      && Remaining(r.value.1) == Remaining(c)[1..]
    decreases |c.inners|
  {
    if |c.inners| == 0 then Failure(NoSuchElement)
    else if PrefixKeys.HasNext(c.inners[0]) then
      var (item, first) := PrefixKeys.Next(c.inners[0]).value;
      var rest := KeyIteratorConcated([first] + c.inners[1..]);
      assert rest.inners[1..] == c.inners[1..];
      Success((item, rest))
    else
      Next(KeyIteratorConcated(c.inners[1..]))
  }

  /** `remove` is refused (assumed, as above). */
  function Remove(c: KeyIteratorConcated): (r: Result<KeyIteratorConcated, IteratorError>)
    ensures r.Failure? && r.error == UnsupportedOperation
  {
    Failure(UnsupportedOperation)
  }

  /** The items of fresh iterators, one after another. */
  function Concat(iterators: seq<PrefixKeysIterator>): seq<BlobItem>
    requires forall i :: 0 <= i < |iterators| ==> iterators[i].Valid()
  {
    if |iterators| == 0 then [] else iterators[0].items + Concat(iterators[1..])
  }

  /** Before anything is read, the concatenation holds every inner iterator's
      items, each inner iterator's in its own order, and no others. */
  lemma {:induction false} FreshRemaining(iterators: seq<PrefixKeysIterator>)
    requires forall i :: 0 <= i < |iterators| ==> iterators[i].Valid() && iterators[i].cursor == 0
    ensures Remaining(KeyIteratorConcated(iterators)) == Concat(iterators)
    ensures |Remaining(KeyIteratorConcated(iterators))| == CountItems(iterators)
  {
    if |iterators| > 0 {
      FreshRemaining(iterators[1..]);
      assert PrefixKeys.Remaining(iterators[0]) == iterators[0].items;
    }
  }

  /** The total number of items across iterators. */
  function CountItems(iterators: seq<PrefixKeysIterator>): nat {
    if |iterators| == 0 then 0 else |iterators[0].items| + CountItems(iterators[1..])
  }

  /** Over two fresh iterators the concatenation yields the first's items, then the
      second's, and as many as both together. */
  lemma ConcatenationOfTwo(first: PrefixKeysIterator, second: PrefixKeysIterator)
    requires first.Valid() && first.cursor == 0 && second.Valid() && second.cursor == 0
    ensures Remaining(KeyIteratorConcated([first, second])) == first.items + second.items
    ensures |Remaining(KeyIteratorConcated([first, second]))| == |first.items| + |second.items|
  {
    var its := [first, second];
    FreshRemaining(its);
    assert its[1..][1..] == [];
    assert Concat(its[1..]) == second.items + [];
    assert CountItems(its[1..]) == |second.items| + 0;
  }
}

=== FILE: download_mojo.dfy ===
/** The `abs-download` goal (`ABSDownloadMojo`): one key is downloaded to the
    download path; any other number of keys is read as prefixes whose listings
    are concatenated and downloaded item by item. */
module DownloadMojo {
  import opened Wrappers
  import opened PathStrings
  import opened BlobStore
  import opened PrefixKeys
  import ConcatKeys
  import opened MojoResults

  /** What `execute` did: the prefixes it opened listings for, the items it took
      from the concatenated iterator, the files it wrote, and the exception it
      ended with, if any. */
  datatype DownloadRun = DownloadRun(
    prefixes: seq<string>,
    taken: seq<BlobItem>,
    writes: seq<Write>,
    error: Option<MojoError>)

  /** `createFullFilePath`: the key appended to the download path after one
      separator. */
  function CreateFullFilePath(downloadPath: string, key: string): (r: string)
    ensures |r| == |downloadPath| + 1 + |key|
    ensures r[..|downloadPath|] == downloadPath && r[|downloadPath|] == Separator
    ensures r[|downloadPath| + 1..] == key
  {
    downloadPath + [Separator] + key
  }

  /** `isDirectory`: the directory probe is not implemented and answers no. */
  function IsDirectory(account: Account, container: string, key: string): (r: bool)
    ensures !r
  {
    false
  }

  /** `downloadSingleFile`: the blob `key` is copied to the file the download
      path names, after an existence check. */
  function DownloadSingleFile(account: Account, container: string, key: string, downloadPath: string, fault: Fault)
    : (r: Result<Write, MojoError>)
    ensures r.Success? <==> fault == NoFault && BlobExists(account, container, key)
    ensures r.Success? ==> r.value == Write(FileName(downloadPath), account[container].blobs[key].content)
    ensures fault != CheckFails && !BlobExists(account, container, key) ==>
      r == Failure(MojoExecution("Could not find blob " + key))
    ensures r.Failure? ==> r.error.MojoExecution?
  {
    if fault == CheckFails then Failure(MojoExecution("Could not fetch abs file " + key))
    else if !BlobExists(account, container, key) then Failure(MojoExecution("Could not find blob " + key))
    else
      match fault
      case NoFault => Success(Write(FileName(downloadPath), account[container].blobs[key].content))
      case WriteFails => Failure(MojoExecution("Could not download abs file " + key))
      case _ => Failure(MojoExecution("Could not fetch abs file " + key))
  }

  /** The key `downloadFile` uses: the listed item is not consulted yet, so it is
      always the empty key. */
  function ItemKey(item: BlobItem): (key: string)
    ensures key == ""
  {
    ""
  }

  /** `downloadFile`: copy the blob named by the item's key to the file the full
      file path of that key names, unless the key is a directory. The blob
      client's read fails when the blob does not exist. With the key always
      empty, that file is the one `downloadSingleFile` writes. */
  function DownloadFile(account: Account, container: string, item: BlobItem, downloadPath: string)
    : (r: Result<Option<Write>, MojoError>)
    ensures r.Success? <==> BlobExists(account, container, "")
    ensures r.Success? ==> r.value == Some(Write(FileName(downloadPath + "/"), account[container].blobs[""].content))
    ensures r.Success? && downloadPath != [] ==> r.value.value.target == FileName(downloadPath)
    ensures r.Failure? ==> r.error == MojoExecution("Could not download abs file ")
  {
    var key := ItemKey(item);
    var target := FileName(CreateFullFilePath(downloadPath, key));
    assert CreateFullFilePath(downloadPath, key) == downloadPath + "/";
    assert "Could not download abs file " + key == "Could not download abs file ";
    assert downloadPath != [] ==> target == FileName(downloadPath) by {
      if downloadPath != [] {
        FileNameIgnoresTrailingSeparator(downloadPath);
      }
    }
    if IsDirectory(account, container, key) then Success(None)
    else if !BlobExists(account, container, key) then Failure(MojoExecution("Could not download abs file " + key))
    else Success(Some(Write(target, account[container].blobs[key].content)))
  }

  /** The prefix iterators built from the key list, in list order, stopping at the
      first listing that fails (listings named in `failing` throw). */
  function OpenAll(account: Account, container: string, keys: seq<string>, failing: set<string>)
    : (r: (seq<PrefixKeysIterator>, bool))
    ensures |r.0| <= |keys|
    ensures forall i :: 0 <= i < |r.0| ==> Open(account, container, keys[i], keys[i] in failing) == Some(r.0[i])
    ensures !r.1 <==> |keys| == 0 || (container in account && forall k :: k in keys ==> k !in failing)
    ensures !r.1 ==> |r.0| == |keys|
    ensures r.1 ==> |r.0| < |keys| && Open(account, container, keys[|r.0|], keys[|r.0|] in failing).None?
  {
    if |keys| == 0 then ([], false)
    else
      match Open(account, container, keys[0], keys[0] in failing)
      case None => ([], true)
      case Some(it) =>
        var (rest, failed) := OpenAll(account, container, keys[1..], failing);
        assert forall k :: k in keys ==> k == keys[0] || k in keys[1..];
        ([it] + rest, failed)
  }

  /** The prefix listings of `keys` one after another. */
  function PrefixListings(c: Container, keys: seq<string>): seq<BlobItem> {
    if |keys| == 0 then [] else Listing(c, keys[0]) + PrefixListings(c, keys[1..])
  }

  lemma {:induction false} OpenedItems(account: Account, container: string, keys: seq<string>, failing: set<string>)
    requires container in account && !OpenAll(account, container, keys, failing).1
    ensures var its := OpenAll(account, container, keys, failing).0;
      && (forall i :: 0 <= i < |its| ==> its[i].Valid() && its[i].cursor == 0)
      && ConcatKeys.Concat(its) == PrefixListings(account[container], keys)
  {
    if |keys| > 0 {
      OpenedItems(account, container, keys[1..], failing);
    }
  }

  /** `execute`. A listing that fails is reported against the container; every
      other failure is the `MojoExecutionException` of the download that failed. */
  method Execute(account: Account, container: string, keys: seq<string>, downloadPath: string,
                 singleFault: Fault, failingListings: set<string>)
    returns (run: DownloadRun)
    ensures |keys| == 1 ==> run.prefixes == [] && run.taken == []
    ensures |keys| == 1 ==>
      match DownloadSingleFile(account, container, keys[0], downloadPath, singleFault)
      case Success(w) => run.writes == [w] && run.error == None
      case Failure(e) => run.writes == [] && run.error == Some(e)
    ensures |keys| == 0 ==> run == DownloadRun([], [], [], None)
    ensures |keys| > 1 && OpenAll(account, container, keys, failingListings).1 ==>
      && run.prefixes < keys && (container !in account || keys[|run.prefixes|] in failingListings)
      && (forall p :: p in run.prefixes ==> p !in failingListings)
      && run.taken == [] && run.writes == [] && run.error == Some(MojoFailure("Could not get container " + container))
    ensures |keys| > 1 && !OpenAll(account, container, keys, failingListings).1 ==>
      && run.prefixes == keys
      && var items := PrefixListings(account[container], keys);
      && (BlobExists(account, container, "") ==>
            && run.taken == items && run.error == None
            && run.writes == Repeat(Write(FileName(downloadPath + "/"), account[container].blobs[""].content), |items|))
      && (!BlobExists(account, container, "") && |items| == 0 ==>
            run.taken == [] && run.writes == [] && run.error == None)
      && (!BlobExists(account, container, "") && |items| > 0 ==>
            run.taken == [items[0]] && run.writes == []
            && run.error == Some(MojoExecution("Could not download abs file ")))
  {
    if |keys| == 1 {
      match DownloadSingleFile(account, container, keys[0], downloadPath, singleFault)
      case Success(w) => return DownloadRun([], [], [w], None);
      case Failure(e) => return DownloadRun([], [], [], Some(e));
    }
    if |keys| == 0 {
      return DownloadRun([], [], [], None);
    }
    var (iterators, failed) := OpenAll(account, container, keys, failingListings);
    if failed {
      return DownloadRun(keys[..|iterators|], [], [], Some(MojoFailure("Could not get container " + container)));
    }
    OpenedItems(account, container, keys, failingListings);
    var it := ConcatKeys.KeyIteratorConcated(iterators);
    ConcatKeys.FreshRemaining(iterators);
    var taken, writes, error := DownloadAll(account, container, it, downloadPath);
    return DownloadRun(keys, taken, writes, error);
  }

  /** The `while (hasNext) downloadFile(next)` loop of `execute`: every item is
      taken in order until a download fails, which ends the loop. */
  method DownloadAll(account: Account, container: string, it0: ConcatKeys.KeyIteratorConcated, downloadPath: string)
    returns (taken: seq<BlobItem>, writes: seq<Write>, error: Option<MojoError>)
    requires it0.Valid()
    ensures var items := ConcatKeys.Remaining(it0);
      && (BlobExists(account, container, "") ==>
            && taken == items && error == None
            && writes == Repeat(Write(FileName(downloadPath + "/"), account[container].blobs[""].content), |items|))
      && (!BlobExists(account, container, "") && |items| == 0 ==>
            taken == [] && writes == [] && error == None)
      && (!BlobExists(account, container, "") && |items| > 0 ==>
            taken == [items[0]] && writes == []
            && error == Some(MojoExecution("Could not download abs file ")))
  {
    ghost var items := ConcatKeys.Remaining(it0);
    var it := it0;
    taken := [];
    writes := [];
    while ConcatKeys.HasNext(it)
      invariant it.Valid()
      invariant taken + ConcatKeys.Remaining(it) == items
      invariant BlobExists(account, container, "") ==>
        writes == Repeat(Write(FileName(downloadPath + "/"), account[container].blobs[""].content), |taken|)
      invariant !BlobExists(account, container, "") ==> taken == [] && writes == []
      decreases |ConcatKeys.Remaining(it)|
    {
      var (item, rest) := ConcatKeys.Next(it).value;
      assert taken + [item] + ConcatKeys.Remaining(rest) == items by {
        assert ConcatKeys.Remaining(it) == [item] + ConcatKeys.Remaining(rest);
      }
      taken := taken + [item];
      match DownloadFile(account, container, item, downloadPath)
      case Failure(e) =>
        assert items[0] == item;
        return taken, writes, Some(e);
      case Success(w) =>
        if w.Some? {
          writes := writes + [w.value];
        }
      it := rest;
    }
    assert taken == items;
    return taken, writes, None;
  }
}

=== FILE: file_system.dfy ===
/** The local file tree the upload goal walks, and the walk itself
    (`ABSUploadMojo.findFilesToUpload`). */
module FileSystem {
  import opened PathStrings

  type Content = seq<bv8>

  /** A node of a symbolic-link-free local file tree. A directory lists its
      entries in the order `File.listFiles` returns them. */
  datatype Node = File(name: string, content: Content) | Dir(name: string, children: seq<Node>)

  /** A regular file found by the walk: its absolute path and its bytes. */
  datatype LocalFile = LocalFile(path: string, content: Content)

  /** A directory entry name as `listFiles` produces it. */
  predicate ValidName(n: string) {
    |n| > 0 && Separator !in n
  }

  /** Entry names are valid and distinct within every directory. */
  predicate WellFormed(node: Node)
    decreases node
  {
    match node
    case File(_, _) => true
    case Dir(_, children) =>
      && (forall i :: 0 <= i < |children| ==> ValidName(children[i].name) && WellFormed(children[i]))
      && (forall i, j :: 0 <= i < j < |children| ==> children[i].name != children[j].name)
  }

  /** The paths of `files`, in order. */
  function PathsOf(files: seq<LocalFile>): (r: seq<string>)
    ensures |r| == |files|
    ensures forall i :: 0 <= i < |files| ==> r[i] == files[i].path
  {
    seq(|files|, i requires 0 <= i < |files| => files[i].path)
  }

  /** No path is found twice. */
  predicate NoDuplicatePaths(files: seq<LocalFile>) {
    Distinct(PathsOf(files))
  }

  /** `findFilesToUpload(at)` where `node` is what lies at path `at`: a
      directory is walked entry by entry, recursing into sub-directories; any
      other path yields itself. Every path it yields extends `at`. */
  function Walk(node: Node, at: string): (r: seq<LocalFile>)
    ensures forall i :: 0 <= i < |r| ==> at <= r[i].path
    decreases node
  {
    match node
    case File(_, content) => [LocalFile(at, content)]
    case Dir(_, children) => WalkEntries(children, at)
  }

  /** The loop over `listFiles()` of the directory at `at`. */
  function WalkEntries(entries: seq<Node>, at: string): (r: seq<LocalFile>)
    ensures forall i :: 0 <= i < |r| ==> at <= r[i].path
    decreases entries
  {
    if |entries| == 0 then []
    else
      var entry := entries[0];
      var here := Join(at, entry.name);
      var first := if entry.Dir? then Walk(entry, here) else [LocalFile(here, entry.content)];
      var rest := WalkEntries(entries[1..], at);
      assert forall i :: 0 <= i < |first| ==> at <= first[i].path by {
        forall i | 0 <= i < |first|
          ensures at <= first[i].path
        {
          PrefixTransitive(at, here, first[i].path);
        }
      }
      first + rest
  }

  // ---------------------------------------------------------------------------
  // Reference definitions: where regular files and directories are
  // ---------------------------------------------------------------------------

  /** The tree at `at` holds the regular file `f`. */
  ghost predicate FileAt(node: Node, at: string, f: LocalFile)
    decreases node
  {
    match node
    case File(_, content) => f == LocalFile(at, content)
    case Dir(_, children) =>
      exists i :: 0 <= i < |children| && FileAt(children[i], Join(at, children[i].name), f)
  }

  /** The tree at `at` holds a directory at path `p`. */
  ghost predicate DirAt(node: Node, at: string, p: string)
    decreases node
  {
    match node
    case File(_, _) => false
    case Dir(_, children) =>
      p == at || exists i :: 0 <= i < |children| && DirAt(children[i], Join(at, children[i].name), p)
  }

  // ---------------------------------------------------------------------------
  // Properties of the walk
  // ---------------------------------------------------------------------------

  /** A path that is not a directory yields exactly itself. */
  lemma WalkOfFile(name: string, content: Content, at: string)
    ensures Walk(File(name, content), at) == [LocalFile(at, content)]
  {
  }

  /** Entry `i`'s results, a whole sub-tree included, come before entry
      `i + 1`'s: walking a directory concatenates the walks of its entries in
      listing order. */
  lemma {:induction false} WalkEntriesAppend(xs: seq<Node>, ys: seq<Node>, at: string)
    ensures WalkEntries(xs + ys, at) == WalkEntries(xs, at) + WalkEntries(ys, at)
    decreases |xs|
  {
    if |xs| == 0 {
      assert xs + ys == ys;
    } else {
      assert (xs + ys)[0] == xs[0];
      assert (xs + ys)[1..] == xs[1..] + ys;
      WalkEntriesAppend(xs[1..], ys, at);
    }
  }

  /** An empty directory contributes nothing. */
  lemma EmptyDirectoryYieldsNothing(name: string, at: string)
    ensures Walk(Dir(name, []), at) == []
  {
  }

  /** The walk yields exactly the regular files of the tree. */
  lemma {:induction false} WalkMembership(node: Node, at: string, f: LocalFile)
    ensures f in Walk(node, at) <==> FileAt(node, at, f)
    decreases node
  {
    match node
    case File(_, _) =>
    case Dir(_, children) =>
      WalkEntriesMembership(children, at, f);
  }

  lemma {:induction false} WalkEntriesMembership(entries: seq<Node>, at: string, f: LocalFile)
    ensures f in WalkEntries(entries, at) <==>
      exists i :: 0 <= i < |entries| && FileAt(entries[i], Join(at, entries[i].name), f)
    decreases entries
  {
    if |entries| > 0 {
      var e := entries[0];
      var here := Join(at, e.name);
      var head := if e.Dir? then Walk(e, here) else [LocalFile(here, e.content)];
      WalkMembership(e, here, f);
      WalkEntriesMembership(entries[1..], at, f);
      assert f in head <==> FileAt(e, here, f);
      if f in WalkEntries(entries, at) {
        if f !in head {
          var i :| 0 <= i < |entries[1..]| && FileAt(entries[1..][i], Join(at, entries[1..][i].name), f);
          assert FileAt(entries[i + 1], Join(at, entries[i + 1].name), f);
        }
      }
      if exists i :: 0 <= i < |entries| && FileAt(entries[i], Join(at, entries[i].name), f) {
        var i :| 0 <= i < |entries| && FileAt(entries[i], Join(at, entries[i].name), f);
        if i > 0 {
          assert FileAt(entries[1..][i - 1], Join(at, entries[1..][i - 1].name), f);
        }
      }
    }
  }

  /** Every regular file of a tree at `at` lies at or under `at`. */
  lemma {:induction false} FileAtUnder(node: Node, at: string, f: LocalFile)
    requires WellFormed(node) && FileAt(node, at, f)
    requires |at| > 0 && at[|at| - 1] != Separator
    ensures Under(f.path, at)
    decreases node
  {
    match node
    case File(_, _) =>
    case Dir(_, children) =>
      var i :| 0 <= i < |children| && FileAt(children[i], Join(at, children[i].name), f);
      JoinNoTrailingSeparator(at, children[i].name);
      FileAtUnder(children[i], Join(at, children[i].name), f);
      UnderJoin(f.path, at, children[i].name);
  }

  /** Every directory of a tree at `at` lies at or under `at`. */
  lemma {:induction false} DirAtUnder(node: Node, at: string, p: string)
    requires WellFormed(node) && DirAt(node, at, p)
    requires |at| > 0 && at[|at| - 1] != Separator
    ensures Under(p, at)
    decreases node
  {
    if p != at {
      var children := node.children;
      var i :| 0 <= i < |children| && DirAt(children[i], Join(at, children[i].name), p);
      JoinNoTrailingSeparator(at, children[i].name);
      DirAtUnder(children[i], Join(at, children[i].name), p);
      UnderJoin(p, at, children[i].name);
    }
  }

  /** Files of entry `i` lie under that entry's own path. */
  lemma EntryFileUnder(entries: seq<Node>, at: string, i: int, f: LocalFile)
    requires 0 <= i < |entries| && WellFormed(entries[i]) && ValidName(entries[i].name)
    requires FileAt(entries[i], Join(at, entries[i].name), f)
    ensures Under(f.path, Join(at, entries[i].name))
  {
    JoinNoTrailingSeparator(at, entries[i].name);
    FileAtUnder(entries[i], Join(at, entries[i].name), f);
  }

  /** In a well-formed tree the walk yields every regular file exactly once. */
  lemma {:induction false} WalkNoDuplicates(node: Node, at: string)
    requires WellFormed(node)
    ensures NoDuplicatePaths(Walk(node, at))
    decreases node
  {
    match node
    case File(_, _) =>
    case Dir(_, children) =>
      WalkEntriesNoDuplicates(children, at);
  }

  lemma {:induction false} WalkEntriesNoDuplicates(entries: seq<Node>, at: string)
    requires forall i :: 0 <= i < |entries| ==> ValidName(entries[i].name) && WellFormed(entries[i])
    requires forall i, j :: 0 <= i < j < |entries| ==> entries[i].name != entries[j].name
    ensures NoDuplicatePaths(WalkEntries(entries, at))
    decreases entries
  {
    if |entries| > 0 {
      var e := entries[0];
      var here := Join(at, e.name);
      var head := if e.Dir? then Walk(e, here) else [LocalFile(here, e.content)];
      var tail := WalkEntries(entries[1..], at);
      WalkNoDuplicates(e, here);
      WalkEntriesNoDuplicates(entries[1..], at);
      forall a, b | 0 <= a < |head| && 0 <= b < |tail|
        ensures head[a].path != tail[b].path
      {
        FirstEntryApart(entries, at, head[a], tail[b]);
      }
      NoDuplicatesAppend(head, tail);
    }
  }

  /** A file the first entry yields and a file a later entry yields lie under
      differently named siblings, so their paths differ. */
  lemma FirstEntryApart(entries: seq<Node>, at: string, f: LocalFile, g: LocalFile)
    requires |entries| > 0
    requires forall i :: 0 <= i < |entries| ==> ValidName(entries[i].name) && WellFormed(entries[i])
    requires forall i, j :: 0 <= i < j < |entries| ==> entries[i].name != entries[j].name
    requires f in (if entries[0].Dir? then Walk(entries[0], Join(at, entries[0].name))
                   else [LocalFile(Join(at, entries[0].name), entries[0].content)])
    requires g in WalkEntries(entries[1..], at)
    ensures f.path != g.path
  {
    var e := entries[0];
    var here := Join(at, e.name);
    WalkMembership(e, here, f);
    EntryFileUnder(entries, at, 0, f);
    WalkEntriesMembership(entries[1..], at, g);
    var j :| 0 <= j < |entries[1..]| && FileAt(entries[1..][j], Join(at, entries[1..][j].name), g);
    EntryFileUnder(entries, at, j + 1, g);
    UnderDistinctSiblings(at, entries[j + 1].name, e.name, g.path);
  }

  lemma NoDuplicatesAppend(xs: seq<LocalFile>, ys: seq<LocalFile>)
    requires NoDuplicatePaths(xs) && NoDuplicatePaths(ys)
    requires forall a, b :: 0 <= a < |xs| && 0 <= b < |ys| ==> xs[a].path != ys[b].path
    ensures NoDuplicatePaths(xs + ys)
  {
    forall i, j | 0 <= i < j < |xs + ys|
      ensures (xs + ys)[i].path != (xs + ys)[j].path
    {
      if j < |xs| {
      } else if i >= |xs| {
        assert (xs + ys)[i] == ys[i - |xs|] && (xs + ys)[j] == ys[j - |xs|];
      } else {
        assert (xs + ys)[i] == xs[i] && (xs + ys)[j] == ys[j - |xs|];
      }
    }
  }

  /** In a well-formed tree no path holds both a regular file and a directory,
      so the walk never yields a directory. */
  lemma {:induction false} FileIsNotDir(node: Node, at: string, f: LocalFile)
    requires WellFormed(node) && FileAt(node, at, f)
    ensures !DirAt(node, at, f.path)
    decreases node
  {
    match node
    case File(_, _) =>
    case Dir(_, children) =>
      var i :| 0 <= i < |children| && FileAt(children[i], Join(at, children[i].name), f);
      EntryFileUnder(children, at, i, f);
      FileIsNotDir(children[i], Join(at, children[i].name), f);
      forall j | 0 <= j < |children|
        ensures !DirAt(children[j], Join(at, children[j].name), f.path)
      {
        if j != i {
          UnderDistinctSiblings(at, children[i].name, children[j].name, f.path);
          JoinNoTrailingSeparator(at, children[j].name);
          if DirAt(children[j], Join(at, children[j].name), f.path) {
            DirAtUnder(children[j], Join(at, children[j].name), f.path);
            assert false;
          }
        }
      }
      assert |Join(at, children[i].name)| > |at|;
  }

  /** The walk's contract as one statement: it yields precisely the regular files
      of a well-formed tree, each once, and never a directory. */
  lemma WalkYieldsExactlyTheFiles(node: Node, at: string)
    requires WellFormed(node)
    ensures forall f :: f in Walk(node, at) <==> FileAt(node, at, f)
    ensures forall f :: f in Walk(node, at) ==> !DirAt(node, at, f.path)
    ensures NoDuplicatePaths(Walk(node, at))
  {
    forall f
      ensures f in Walk(node, at) <==> FileAt(node, at, f)
    {
      WalkMembership(node, at, f);
    }
    forall f | f in Walk(node, at)
      ensures !DirAt(node, at, f.path)
    {
      FileIsNotDir(node, at, f);
    }
    WalkNoDuplicates(node, at);
  }
}

=== FILE: mojo_results.dfy ===
/** What a goal run leaves behind: the Maven exceptions that end it, and the
    local files it writes. */
module MojoResults {
  import opened FileSystem

  /** `MojoExecutionException` and `MojoFailureException`. */
  datatype MojoError = MojoExecution(message: string) | MojoFailure(message: string)

  /** A local file written with the given bytes. */
  datatype Write = Write(target: string, content: Content)

  /** `n` writes of the same bytes to the same file. */
  function Repeat(w: Write, n: nat): (r: seq<Write>)
    ensures |r| == n && forall i :: 0 <= i < n ==> r[i] == w
  {
    if n == 0 then [] else Repeat(w, n - 1) + [w]
  }
}

=== FILE: path_strings.dfy ===
/** The `java.lang.String` and `java.io.File` string operations the plugins use,
    on `/`-separated absolute paths. */
module PathStrings {

  const Separator: char := '/'

  /** No name occurs twice. */
  predicate Distinct(names: seq<string>) {
    forall i, j :: 0 <= i < j < |names| ==> names[i] != names[j]
  }

  /** `p` occurs in `s` starting at index `i`. */
  predicate OccursAt(s: string, p: string, i: nat) {
    i + |p| <= |s| && s[i..i + |p|] == p
  }

  /** `s.contains(p)`. */
  predicate Contains(s: string, p: string) {
    exists i: nat | i <= |s| :: OccursAt(s, p, i)
  }

  /** `s.replace(p, "")`: scanning left to right, every non-overlapping
      occurrence of `p` is removed. An empty `p` leaves `s` unchanged. */
  function RemoveAll(s: string, p: string): (r: string)
    ensures |p| == 0 ==> r == s
    ensures |r| <= |s|
    decreases |s|
  {
    if |p| == 0 || |s| < |p| then s
    else if s[..|p|] == p then RemoveAll(s[|p|..], p)
    else [s[0]] + RemoveAll(s[1..], p)
  }

  /** `replace` only removes characters: it never adds one, nor repeats one
      more often than the input has it. */
  lemma {:induction false} RemoveAllOnlyRemoves(s: string, p: string)
    ensures multiset(RemoveAll(s, p)) <= multiset(s)
    decreases |s|
  {
    if |p| == 0 || |s| < |p| {
    } else if s[..|p|] == p {
      RemoveAllOnlyRemoves(s[|p|..], p);
      assert s == s[..|p|] + s[|p|..];
    } else {
      RemoveAllOnlyRemoves(s[1..], p);
      assert s == [s[0]] + s[1..];
    }
  }

  /** `s.replaceFirst("/", "")`: the first separator, wherever it is, is removed. */
  function RemoveFirstSeparator(s: string): (r: string)
    ensures Separator in s ==> |r| == |s| - 1
    ensures Separator !in s ==> r == s
    ensures |s| > 0 && s[0] == Separator ==> r == s[1..]
  {
    if |s| == 0 then s
    else if s[0] == Separator then s[1..]
    else [s[0]] + RemoveFirstSeparator(s[1..])
  }

  /** The directory part of a child path: the parent followed by exactly one
      separator (the root `/` already ends with one). */
  function Lead(parent: string): (r: string)
    ensures |r| > 0 && r[|r| - 1] == Separator
    ensures |r| >= |parent| && r[..|parent|] == parent
  {
    if |parent| > 0 && parent[|parent| - 1] == Separator then parent
    else parent + [Separator]
  }

  /** `new File(parent, name).getPath()` for a normalised parent. */
  function Join(parent: string, name: string): (r: string)
  {
    Lead(parent) + name
  }

  /** Index of the last separator in `s`, or -1 (`lastIndexOf('/')`). */
  function LastSeparator(s: string): (r: int)
    ensures -1 <= r < |s|
    ensures r >= 0 ==> s[r] == Separator
    ensures forall j :: r < j < |s| ==> s[j] != Separator
  {
    if |s| == 0 then -1
    else if s[|s| - 1] == Separator then |s| - 1
    else LastSeparator(s[..|s| - 1])
  }

  /** `new File(path).getName()`: what follows the last separator. */
  function BaseName(path: string): (r: string)
    ensures Separator !in r && |r| <= |path|
    ensures r == path[|path| - |r|..]
    ensures |r| == |path| || path[|path| - |r| - 1] == Separator
  {
    path[LastSeparator(path) + 1..]
  }

  /** The path `new File(p)` names: trailing separators are dropped, but the
      root `/` stays. */
  function FileName(p: string): (r: string)
    ensures r <= p
    ensures p != [] ==> r != []
    ensures |r| > 1 ==> r[|r| - 1] != Separator
    ensures forall i :: |r| <= i < |p| ==> p[i] == Separator
    decreases |p|
  {
    if |p| > 1 && p[|p| - 1] == Separator then FileName(p[..|p| - 1]) else p
  }

  /** A path that is `q` itself or lies beneath `q`: `q` followed by a separator. */
  predicate Under(p: string, q: string) {
    p == q || (|p| > |q| && p[..|q|] == q && p[|q|] == Separator)
  }

  lemma PrefixTransitive(a: string, b: string, c: string)
    requires a <= b && b <= c
    ensures a <= c
  {
    assert c[..|a|] == c[..|b|][..|a|];
  }

  /** A trailing separator does not change which file a non-empty path names. */
  lemma FileNameIgnoresTrailingSeparator(p: string)
    requires p != []
    ensures FileName(p + [Separator]) == FileName(p)
  {
    assert (p + [Separator])[..|p|] == p;
  }

  // ---------------------------------------------------------------------------
  // Facts about RemoveAll
  // ---------------------------------------------------------------------------

  lemma ContainsShift(s: string, p: string, i: nat)
    requires |s| > 0 && OccursAt(s[1..], p, i)
    ensures OccursAt(s, p, i + 1)
  {
    assert s[1..][i..i + |p|] == s[i + 1..i + 1 + |p|];
  }

  /** Removing a pattern that does not occur changes nothing. */
  lemma {:induction false} RemoveAllAbsent(s: string, p: string)
    requires |p| > 0 && !Contains(s, p)
    ensures RemoveAll(s, p) == s
    decreases |s|
  {
    if |s| < |p| {
    } else {
      assert !OccursAt(s, p, 0);
      assert s[0..|p|] == s[..|p|];
      if Contains(s[1..], p) {
        var i: nat :| OccursAt(s[1..], p, i);
        ContainsShift(s, p, i);
        assert false;
      }
      RemoveAllAbsent(s[1..], p);
      assert [s[0]] + s[1..] == s;
    }
  }

  /** A leading occurrence is removed, and the scan resumes right after it. */
  lemma RemoveAllLeading(p: string, t: string)
    requires |p| > 0
    ensures RemoveAll(p + t, p) == RemoveAll(t, p)
  {
    assert (p + t)[..|p|] == p;
    assert (p + t)[|p|..] == t;
  }

  /** When `root` occurs in `root + "/" + rel` only as its prefix, removing every
      occurrence strips exactly the prefix. */
  lemma RemoveRootPrefix(root: string, rel: string)
    requires |root| > 0 && !Contains([Separator] + rel, root)
    ensures RemoveAll(root + [Separator] + rel, root) == [Separator] + rel
  {
    assert root + [Separator] + rel == root + ([Separator] + rel);
    RemoveAllLeading(root, [Separator] + rel);
    RemoveAllAbsent([Separator] + rel, root);
  }

  // ---------------------------------------------------------------------------
  // Facts about paths
  // ---------------------------------------------------------------------------

  /** `getName` recovers the name a child path was built from. */
  lemma BaseNameOfJoin(parent: string, name: string)
    requires Separator !in name
    ensures BaseName(Join(parent, name)) == name
  {
    var j := Join(parent, name);
    var m := |Lead(parent)| - 1;
    assert j[m] == Separator;
    assert forall i :: m < i < |j| ==> j[i] == name[i - m - 1];
    assert LastSeparator(j) == m;
    assert j[m + 1..] == name;
  }

  /** A joined child never ends with a separator when its name does not. */
  lemma JoinNoTrailingSeparator(parent: string, name: string)
    requires |name| > 0 && Separator !in name
    ensures |Join(parent, name)| > 0 && Join(parent, name)[|Join(parent, name)| - 1] != Separator
  {
    var j := Join(parent, name);
    assert j[|j| - 1] == j[|j| - |name|..][|name| - 1];
  }

  /** Everything under a child directory `q/m` is under `q`. */
  lemma UnderJoin(p: string, q: string, m: string)
    requires |q| > 0 && q[|q| - 1] != Separator
    requires Under(p, Join(q, m))
    ensures Under(p, q) && p != q
  {
    var j := Join(q, m);
    assert j == q + [Separator] + m;
    assert p[..|j|][..|q|] == q;
    assert p[|q|] == j[|q|];
  }

  /** A path strictly under `q` is `q`, a separator, and the rest. */
  lemma StrictlyUnder(p: string, q: string)
    requires Under(p, q) && p != q
    ensures |p| > |q| && p == q + [Separator] + p[|q| + 1..]
  {
    assert p == p[..|q|] + [p[|q|]] + p[|q| + 1..];
  }

  /** No path lies under two differently named children of one parent. */
  lemma UnderDistinctSiblings(at: string, n1: string, n2: string, p: string)
    requires |n1| > 0 && |n2| > 0 && Separator !in n1 && Separator !in n2 && n1 != n2
    requires Under(p, Join(at, n1))
    ensures !Under(p, Join(at, n2))
  {
    var k := |Lead(at)|;
    var j1, j2 := Join(at, n1), Join(at, n2);
    assert p[..|j1|] == j1;
    assert p[k..k + |n1|] == j1[k..] == n1;
    assert j2[k..] == n2;
    if |n1| == |n2| {
      assert p[..|j2|][k..] != j2[k..];
    } else if |n1| < |n2| {
      if |p| >= |j2| {
        assert p[k + |n1|] == Separator;
        assert p[..|j2|][k + |n1|] != j2[k + |n1|];
      }
    } else {
      assert p[k + |n2|] == n1[|n2|];
      assert p[..|j2|] != j2 || p[|j2|] != Separator;
    }
  }
}

=== FILE: prefix_keys.dfy ===
/** `PrefixKeysIterator`: a read-only cursor over one prefix-scoped listing of a
    container. Its operations take no account and return none, so none of them
    can change the store. */
module PrefixKeys {
  import opened Wrappers
  import opened BlobStore

  /** A listing entry; only its name is modelled. */
  datatype BlobItem = BlobItem(name: string)

  /** `NoSuchElementException` and `UnsupportedOperationException`. */
  datatype IteratorError = NoSuchElement | UnsupportedOperation

  /** The listing obtained at construction, and how much of it has been read. */
  datatype PrefixKeysIterator = PrefixKeysIterator(prefix: string, items: seq<BlobItem>, cursor: nat) {
    predicate Valid() {
      cursor <= |items|
    }
  }

  function Items(names: seq<string>): (r: seq<BlobItem>)
    ensures |r| == |names|
    ensures forall i :: 0 <= i < |names| ==> r[i] == BlobItem(names[i])
  {
    if |names| == 0 then [] else [BlobItem(names[0])] + Items(names[1..])
  }

  /** The items a fresh iterator on `prefix` lists from container `c`. */
  function Listing(c: Container, prefix: string): seq<BlobItem> {
    Items(ListByPrefix(c.listing, prefix))
  }

  /** The constructor: exactly one listing, scoped to `prefix`. `None` is the
      `BlobStorageException` of a failing listing or of a container that does not
      exist. */
  function Open(account: Account, container: string, prefix: string, listingFails: bool)
    : (r: Option<PrefixKeysIterator>)
    ensures r.Some? <==> !listingFails && container in account
    ensures r.Some? ==> r.value.Valid() && r.value.cursor == 0 && r.value.prefix == prefix
    ensures r.Some? ==> forall n :: BlobItem(n) in r.value.items <==> n in account[container].listing && prefix <= n
  {
    if listingFails || container !in account then None
    else Some(PrefixKeysIterator(prefix, Listing(account[container], prefix), 0))
  }

  /** What is still to be read. */
  function Remaining(it: PrefixKeysIterator): seq<BlobItem>
    requires it.Valid()
  {
    it.items[it.cursor..]
  }

  function HasNext(it: PrefixKeysIterator): (b: bool)
    requires it.Valid()
    ensures b <==> |Remaining(it)| > 0
  {
    it.cursor < |it.items|
  }

  /** The item at the cursor, and the iterator advanced past it. */
  function Next(it: PrefixKeysIterator): (r: Result<(BlobItem, PrefixKeysIterator), IteratorError>)
    requires it.Valid()
    ensures r.Success? <==> HasNext(it)
    ensures r.Failure? ==> r.error == NoSuchElement
    ensures r.Success? ==>
      && r.value.1.Valid()
      && r.value.0 == Remaining(it)[0]
      && Remaining(r.value.1) == Remaining(it)[1..]
      && r.value.1.items == it.items && r.value.1.prefix == it.prefix
  {
    if it.cursor < |it.items| then Success((it.items[it.cursor], it.(cursor := it.cursor + 1)))
    else Failure(NoSuchElement)
  }

  /** `remove` is refused. */
  function Remove(it: PrefixKeysIterator): (r: Result<PrefixKeysIterator, IteratorError>)
    ensures r.Failure? && r.error == UnsupportedOperation
  {
    Failure(UnsupportedOperation)
  }

  /** `forEachRemaining` is refused as well, whatever the action. */
  function ForEachRemaining<A>(it: PrefixKeysIterator, action: BlobItem -> A): (r: Result<seq<A>, IteratorError>)
    ensures r.Failure? && r.error == UnsupportedOperation
  {
    Failure(UnsupportedOperation)
  }

  /** What a caller reads by calling `next` while `hasNext` holds. */
  function Drain(it: PrefixKeysIterator): seq<BlobItem>
    requires it.Valid()
    decreases |it.items| - it.cursor
  {
    if !HasNext(it) then []
    else
      match Next(it)
      case Success((item, rest)) => [item] + Drain(rest)
      case Failure(_) => []
  }

  /** Reading an iterator to the end yields exactly what remains, in order:
      `hasNext` and `next` neither skip nor repeat an item. */
  lemma {:induction false} DrainIsRemaining(it: PrefixKeysIterator)
    requires it.Valid()
    ensures Drain(it) == Remaining(it)
    decreases |it.items| - it.cursor
  {
    if HasNext(it) {
      var rest := Next(it).value.1;
      DrainIsRemaining(rest);
      assert Remaining(it) == [Remaining(it)[0]] + Remaining(it)[1..];
    }
  }

  /** A fresh iterator yields the container's names that start with the prefix,
      in listing order. */
  lemma OpenThenDrain(account: Account, container: string, prefix: string)
    requires container in account
    ensures Drain(Open(account, container, prefix, false).value) == Items(ListByPrefix(account[container].listing, prefix))
  {
    var it := Open(account, container, prefix, false).value;
    DrainIsRemaining(it);
    assert Remaining(it) == it.items;
  }
}

=== FILE: storage_repository.dfy ===
/** The wagon's connector (`AzureStorageRepository`) against an abstract storage
    account. Every operation takes the account it talks to and, where a store
    or local I/O call can fail, which call fails. */
module StorageRepository {
  import opened Wrappers
  import opened FileSystem
  import opened BlobStore
  import opened ClientFactory

  /** The wagon exceptions the connector throws. `StorageError` is an unchecked
      `BlobStorageException` that `list` lets escape. */
  datatype WagonError =
    | ResourceDoesNotExist(message: string)
    | TransferFailed(message: string)
    | Authentication(message: string)
    | StorageError

  const InvalidCredentials: string := "Provide valid credentials"
  const CouldNotDownload: string := "Could not download file from repo"

  /** The container client `connect` obtains: the credential it was built from and
      the container it addresses. */
  datatype Binding = Binding(credential: Credential, container: string)

  /** A connector: the container name fixed at construction, and the container
      client once connected (`null` before). */
  datatype Repository = Repository(container: string, binding: Option<Binding>) {
    predicate Connected() {
      binding.Some?
    }
  }

  /** The local file a download writes, with the bytes written to it. */
  datatype Download = Download(destination: string, content: Content)

  /** `new AzureStorageRepository(directory)`. */
  function NewRepository(directory: string): (r: Repository)
    ensures r.container == directory && !r.Connected()
  {
    Repository(directory, None)
  }

  /** `connect`: build the client for the credential and bind the container named
      at construction. `clientFails` is a `BlobStorageException` from the client. */
  function Connect(repo: Repository, info: Option<AuthenticationInfo>, clientFails: bool): (r: Result<Repository, WagonError>)
    ensures r.Success? <==> info.Some? && !clientFails
    ensures r.Success? ==>
      && r.value.Connected() && r.value.container == repo.container
      && r.value.binding.value == Binding(Create(info).value, repo.container)
    ensures info.None? ==> r == Failure(Authentication(MissingCredentials))
    ensures info.Some? && clientFails ==> r == Failure(Authentication(InvalidCredentials))
  {
    match Create(info)
    case Failure(e) => Failure(Authentication(e.message))
    case Success(credential) =>
      if clientFails then Failure(Authentication(InvalidCredentials))
      else Success(Repository(repo.container, Some(Binding(credential, repo.container))))
  }

  /** `disconnect`: deliberately keeps the container client, so that one
      connection serves every module of a build. */
  function Disconnect(repo: Repository): (r: Repository)
    ensures r.container == repo.container && r.binding == repo.binding
  {
    repo
  }

  /** The blob a connected repository's `getBlobClient(name)` addresses exists. */
  predicate Present(repo: Repository, account: Account, name: string)
    requires repo.Connected()
  {
    BlobExists(account, repo.binding.value.container, name)
  }

  function BlobOf(repo: Repository, account: Account, name: string): Blob
    requires repo.Connected() && Present(repo, account, name)
  {
    account[repo.binding.value.container].blobs[name]
  }

  /** `copy`: check that the blob exists, then stream it into `destination`. An
      absent blob is reported under its own name; any store or I/O failure is
      reported as a missing resource too. */
  function Copy(repo: Repository, account: Account, resourceName: string, destination: string, fault: Fault)
    : (r: Result<Download, WagonError>)
    requires repo.Connected()
    ensures r.Success? <==> fault == NoFault && Present(repo, account, resourceName)
    ensures r.Success? ==> r.value == Download(destination, BlobOf(repo, account, resourceName).content)
    ensures r.Failure? ==> r.error.ResourceDoesNotExist?
    ensures fault != CheckFails && !Present(repo, account, resourceName) ==>
      r == Failure(ResourceDoesNotExist(resourceName))
    ensures fault != NoFault && (fault == CheckFails || Present(repo, account, resourceName)) ==>
      r == Failure(ResourceDoesNotExist(CouldNotDownload))
  {
    if fault == CheckFails then Failure(ResourceDoesNotExist(CouldNotDownload))
    else if !Present(repo, account, resourceName) then Failure(ResourceDoesNotExist(resourceName))
    else if fault != NoFault then Failure(ResourceDoesNotExist(CouldNotDownload))
    else Success(Download(destination, BlobOf(repo, account, resourceName).content))
  }

  /** `newResourceAvailable`: whether the blob was modified strictly after
      `timeStamp`; an absent blob is not new. */
  function NewResourceAvailable(repo: Repository, account: Account, resourceName: string, timeStamp: int, storeFails: bool)
    : (r: Result<bool, WagonError>)
    requires repo.Connected()
    ensures storeFails <==> r.Failure?
    ensures storeFails ==> r.error == ResourceDoesNotExist(resourceName)
    ensures !storeFails && !Present(repo, account, resourceName) ==> r == Success(false)
    ensures !storeFails && Present(repo, account, resourceName) ==>
      r == Success(BlobOf(repo, account, resourceName).lastModified > timeStamp)
  {
    if storeFails then Failure(ResourceDoesNotExist(resourceName))
    else if !Present(repo, account, resourceName) then Success(false)
    else Success(BlobOf(repo, account, resourceName).lastModified > timeStamp)
  }

  /** `put`: upload the file to `destination` with no request conditions, so an
      existing blob is overwritten. The service stamps it with `now`; the content
      type comes from the file-extension resolver. A container that does not
      exist, or a failing upload or file read, is a failed transfer. */
  function Put(repo: Repository, account: Account, file: LocalFile, destination: string,
               contentType: string, now: int, transferFails: bool)
    : (r: Result<Account, WagonError>)
    requires repo.Connected()
    ensures r.Success? <==> !transferFails && repo.binding.value.container in account
    ensures r.Failure? ==> r.error == TransferFailed(destination)
    ensures r.Success? && (forall c :: c in account ==> account[c].Valid()) ==>
      forall c :: c in r.value ==> r.value[c].Valid()
    ensures r.Success? ==> r.value.Keys == account.Keys
    ensures r.Success? ==>
      var name := repo.binding.value.container;
      && (forall c :: c in account && c != name ==> r.value[c] == account[c])
      && r.value[name].blobs == account[name].blobs[destination := Blob(file.content, contentType, now)]
      && r.value[name].listing
           == if destination in account[name].blobs then account[name].listing else account[name].listing + [destination]
  {
    var name := repo.binding.value.container;
    if transferFails || name !in account then Failure(TransferFailed(destination))
    else Success(account[name := PutBlob(account[name], destination, Blob(file.content, contentType, now))])
  }

  /** `exists`: the blob client is obtained and discarded; the answer is whether
      the container exists. */
  function Exists(repo: Repository, account: Account, resourceName: string, storeFails: bool)
    : (r: Result<bool, WagonError>)
    requires repo.Connected()
    ensures storeFails ==> r == Failure(TransferFailed(resourceName))
    ensures !storeFails ==> r.Success? && (r.value <==> repo.binding.value.container in account)
  {
    if storeFails then Failure(TransferFailed(resourceName))
    else Success(repo.binding.value.container in account)
  }

  /** `list`: the argument is only logged; the names of every blob in the
      container are returned in listing order. */
  function List(repo: Repository, account: Account, path: string, storeFails: bool)
    : (r: Result<seq<string>, WagonError>)
    requires repo.Connected()
    ensures r.Success? <==> !storeFails && repo.binding.value.container in account
    ensures r.Failure? ==> r.error == StorageError
    ensures r.Success? && account[repo.binding.value.container].Valid() ==>
      forall n :: n in r.value <==> Present(repo, account, n)
  {
    var name := repo.binding.value.container;
    if storeFails || name !in account then Failure(StorageError)
    else Success(account[name].listing)
  }

  // ---------------------------------------------------------------------------
  // Properties across operations
  // ---------------------------------------------------------------------------

  /** A connected repository is bound to the container named at construction,
      and disconnecting changes nothing, however often it is repeated. */
  lemma ConnectThenDisconnect(directory: string, info: AuthenticationInfo)
    ensures var r := Connect(NewRepository(directory), Some(info), false);
      && r.Success? && r.value.binding.value.container == directory
      && Disconnect(Disconnect(r.value)) == Disconnect(r.value) == r.value
  {
  }

  /** `exists` answers the same for every resource name. */
  lemma ExistsIgnoresResourceName(repo: Repository, account: Account, a: string, b: string)
    requires repo.Connected()
    ensures Exists(repo, account, a, false) == Exists(repo, account, b, false)
  {
  }

  /** `exists` may report a blob that is not there: in an existing container,
      every name "exists". */
  lemma ExistsReportsAbsentBlob(repo: Repository, account: Account, name: string)
    requires repo.Connected() && repo.binding.value.container in account
    requires !Present(repo, account, name)
    ensures Exists(repo, account, name, false) == Success(true)
  {
  }

  /** `list` returns the same names whatever path it is given. */
  lemma ListIgnoresPath(repo: Repository, account: Account, a: string, b: string)
    requires repo.Connected()
    ensures List(repo, account, a, false) == List(repo, account, b, false)
  {
  }

  /** After a successful `put`: the destination holds the file's bytes, `exists`
      reports it, `copy` returns those bytes, and it is newer than exactly the
      time stamps before `now`. Every other container is untouched, and the
      bound container gains no name but the destination. */
  lemma PutThenRead(repo: Repository, account: Account, file: LocalFile, destination: string,
                    contentType: string, now: int, target: string, timeStamp: int)
    requires repo.Connected()
    requires Put(repo, account, file, destination, contentType, now, false).Success?
    ensures var after := Put(repo, account, file, destination, contentType, now, false).value;
      && Exists(repo, after, destination, false) == Success(true)
      && Copy(repo, after, destination, target, NoFault) == Success(Download(target, file.content))
      && NewResourceAvailable(repo, after, destination, timeStamp, false) == Success(now > timeStamp)
      && after.Keys == account.Keys
      && (forall c :: c in account && c != repo.binding.value.container ==> after[c] == account[c])
      && after[repo.binding.value.container].blobs.Keys == account[repo.binding.value.container].blobs.Keys + {destination}
      && (forall n :: n in account[repo.binding.value.container].blobs && n != destination ==>
            after[repo.binding.value.container].blobs[n] == account[repo.binding.value.container].blobs[n])
  {
  }

  /** `copy` of an absent blob fails and writes nothing, whatever happens after
      the existence check. */
  lemma CopyAbsent(repo: Repository, account: Account, resourceName: string, destination: string, fault: Fault)
    requires repo.Connected() && !Present(repo, account, resourceName)
    ensures Copy(repo, account, resourceName, destination, fault).Failure?
  {
  }
}

=== FILE: upload_mojo.dfy ===
/** The `abs-upload` goal (`ABSUploadMojo`): a file is uploaded under the given
    key or its own name; a directory is walked and each regular file is
    uploaded under a key derived from its path relative to the directory. */
module UploadMojo {
  import opened Wrappers
  import opened PathStrings
  import opened FileSystem
  import opened BlobStore
  import opened MojoResults

  /** One upload: the blob name and the local file whose bytes it receives. */
  datatype Upload = Upload(key: string, file: LocalFile)

  /** What `execute` did: the account afterwards, the uploads that succeeded in
      the order they were made, and the exception it ended with, if any. */
  datatype UploadRun = UploadRun(account: Account, uploads: seq<Upload>, error: Option<MojoError>)

  /** `generateKeyName`: every occurrence of the goal's (absolute) path is removed
      from the file's path. With a key, the key is put in front, joined by a
      separator unless the rest already starts with one (the test looks at the
      file's path, not at what is left of it). Without a key, the first separator
      of what is left is dropped when it starts with one. */
  function GenerateKeyName(fullFilePath: string, root: string, key: Option<string>): (r: string)
    ensures key.Some? ==> |r| >= |key.value| && r[..|key.value|] == key.value
  {
    var clear := RemoveAll(fullFilePath, root);
    match key
    case Some(k) =>
      var joint := if |fullFilePath| > 0 && fullFilePath[0] == Separator then "" else [Separator];
      assert (k + joint + clear)[..|k|] == k;
      k + joint + clear
    case None =>
      if |clear| > 0 && clear[0] == Separator then RemoveFirstSeparator(clear) else clear
  }

  /** `keyIfNull`: the given key, or else the name of the uploaded file. */
  function KeyIfNull(path: string, key: Option<string>): (r: string)
    ensures key.Some? ==> r == key.value
    ensures key.None? ==> Separator !in r && |r| <= |path| && r == path[|path| - |r|..]
    ensures key.None? && |r| < |path| ==> path[|path| - |r| - 1] == Separator
  {
    match key
    case Some(k) => k
    case None => BaseName(path)
  }

  /** The exception of an upload that fails, named after the file. */
  function UploadFailure(path: string): MojoError {
    MojoExecution("Could not upload file " + BaseName(path))
  }

  /** `uploadFileToStorage`: upload the bytes of the local file at `path`
      (`None` when there is none to open) unconditionally under `blobName`. The
      service stamps the blob with `now`; `contentType` is the resolver's answer
      for the path. Local paths in `failing` fail to be read or sent; a
      container that does not exist refuses the upload. */
  function UploadFileToStorage(account: Account, container: string, blobName: string, path: string,
                               content: Option<Content>, failing: set<string>,
                               contentType: string -> string, now: int)
    : (r: Result<Account, MojoError>)
    ensures r.Success? <==> content.Some? && path !in failing && container in account
    ensures r.Failure? ==> r.error == UploadFailure(path)
    ensures r.Success? ==>
      && r.value.Keys == account.Keys
      && (forall c :: c in account && c != container ==> r.value[c] == account[c])
      && r.value[container].blobs == account[container].blobs[blobName := Blob(content.value, contentType(path), now)]
      && r.value[container].listing
           == (if blobName in account[container].blobs then account[container].listing
               else account[container].listing + [blobName])
      && (account[container].Valid() ==> r.value[container].Valid())
  {
    if content.None? || path in failing || container !in account then Failure(UploadFailure(path))
    else
      var blob := Blob(content.value, contentType(path), now);
      Success(account[container := PutBlob(account[container], blobName, blob)])
  }

  /** The uploads a directory run plans: each walked file under its generated
      key, in walk order. */
  function Plan(files: seq<LocalFile>, root: string, key: Option<string>): (r: seq<Upload>)
    ensures |r| == |files|
    ensures forall i :: 0 <= i < |files| ==> r[i] == Upload(GenerateKeyName(files[i].path, root, key), files[i])
  {
    if |files| == 0 then [] else [Upload(GenerateKeyName(files[0].path, root, key), files[0])] + Plan(files[1..], root, key)
  }

  /** The blob names of a sequence of uploads. */
  function KeyList(uploads: seq<Upload>): (r: seq<string>)
    ensures |r| == |uploads|
    ensures forall i :: 0 <= i < |uploads| ==> r[i] == uploads[i].key
  {
    if |uploads| == 0 then [] else [uploads[0].key] + KeyList(uploads[1..])
  }

  /** Upload `i` is the last one to its blob name. */
  predicate LastFor(uploads: seq<Upload>, i: int)
    requires 0 <= i < |uploads|
  {
    forall j :: i < j < |uploads| ==> uploads[j].key != uploads[i].key
  }

  /** `listing` followed by every name of `names` that is not in `known`, once
      each, in the order of its first occurrence. */
  function AppendNew(listing: seq<string>, known: set<string>, names: seq<string>): (r: seq<string>)
    ensures listing <= r
    decreases |names|
  {
    if |names| == 0 then listing
    else
      var init := names[..|names| - 1];
      var n := names[|names| - 1];
      if n in known || n in init then AppendNew(listing, known, init)
      else AppendNew(listing, known, init) + [n]
  }

  /** The account `after` is `before` with `uploads` applied in order to
      `container`: an existing blob is overwritten, the last upload to a name
      wins, every other blob and every other container is left as it was, the
      listing keeps its names in place and gains each new name once, in upload
      order, and a valid listing stays valid. */
  ghost predicate Stored(before: Account, after: Account, container: string, uploads: seq<Upload>,
                         contentType: string -> string, now: int)
  {
    && after.Keys == before.Keys
    && (forall c :: c in before && c != container ==> after[c] == before[c])
    && (container in before ==> StoredIn(before[container], after[container], uploads, contentType, now))
    && (container !in before ==> after == before)
  }

  /** The container part of `Stored`. */
  ghost predicate StoredIn(before: Container, after: Container, uploads: seq<Upload>,
                           contentType: string -> string, now: int)
  {
    && (forall n :: n in after.blobs <==> n in before.blobs || n in KeyList(uploads))
    && (forall n :: n in before.blobs && n !in KeyList(uploads) ==> after.blobs[n] == before.blobs[n])
    && (forall i :: 0 <= i < |uploads| && LastFor(uploads, i) ==>
          after.blobs[uploads[i].key] == Blob(uploads[i].file.content, contentType(uploads[i].file.path), now))
    && after.listing == AppendNew(before.listing, before.blobs.Keys, KeyList(uploads))
    && (before.Valid() ==> after.Valid())
  }

  /** The account after `uploads` are made to `container` one after another,
      each one an unconditional upload. */
  ghost function Applied(account: Account, container: string, uploads: seq<Upload>,
                         contentType: string -> string, now: int): (r: Account)
    ensures r.Keys == account.Keys
    decreases |uploads|
  {
    if |uploads| == 0 || container !in account then account
    else
      var before := Applied(account, container, uploads[..|uploads| - 1], contentType, now);
      var u := uploads[|uploads| - 1];
      before[container := PutBlob(before[container], u.key, Blob(u.file.content, contentType(u.file.path), now))]
  }

  /** A successful upload stores exactly that one upload. */
  lemma UploadStores(account: Account, container: string, blobName: string, path: string, content: Content,
                     failing: set<string>, contentType: string -> string, now: int, after: Account)
    requires UploadFileToStorage(account, container, blobName, path, Some(content), failing, contentType, now) == Success(after)
    ensures Stored(account, after, container, [Upload(blobName, LocalFile(path, content))], contentType, now)
  {
    PutStoresIn(account[container], Upload(blobName, LocalFile(path, content)), contentType, now);
  }

  /** One unconditional upload to a container stores exactly that upload. */
  lemma PutStoresIn(c: Container, u: Upload, contentType: string -> string, now: int)
    ensures StoredIn(c, PutBlob(c, u.key, Blob(u.file.content, contentType(u.file.path), now)), [u], contentType, now)
  {
    assert KeyList([u]) == [u.key];
    assert [u.key][..0] == [];
  }

  /** Uploads made one after another compose: storing `uploads` and then `u`
      stores `uploads + [u]`. */
  lemma StoredStep(before: Account, mid: Account, after: Account, container: string, uploads: seq<Upload>,
                   u: Upload, contentType: string -> string, now: int)
    requires Stored(before, mid, container, uploads, contentType, now)
    requires Stored(mid, after, container, [u], contentType, now)
    ensures Stored(before, after, container, uploads + [u], contentType, now)
  {
    if container in before {
      StoredInStep(before[container], mid[container], after[container], uploads, u, contentType, now);
    }
  }

  /** `StoredStep` for the container the uploads go to. */
  lemma StoredInStep(before: Container, mid: Container, after: Container, uploads: seq<Upload>,
                     u: Upload, contentType: string -> string, now: int)
    requires StoredIn(before, mid, uploads, contentType, now)
    requires StoredIn(mid, after, [u], contentType, now)
    ensures StoredIn(before, after, uploads + [u], contentType, now)
  {
    var keys := KeyList(uploads);
    assert KeyList(uploads + [u]) == keys + [u.key];
    assert KeyList([u]) == [u.key];
    assert LastFor([u], 0);
    NamesStep(before.blobs, mid.blobs, after.blobs, keys, u.key);
    assert forall i :: 0 <= i < |uploads| ==> uploads[i].key in mid.blobs by {
      forall i | 0 <= i < |uploads|
        ensures uploads[i].key in mid.blobs
      {
        assert keys[i] in keys;
      }
    }
    LastWinsStep(mid.blobs, after.blobs, uploads, u, contentType, now);
    ListingStep(before, mid, after, keys, u.key);
  }

  /** The blob names and the untouched blobs after one more upload. */
  lemma NamesStep(before: map<string, Blob>, mid: map<string, Blob>, after: map<string, Blob>,
                  keys: seq<string>, key: string)
    requires forall n :: n in mid <==> n in before || n in keys
    requires forall n :: n in before && n !in keys ==> mid[n] == before[n]
    requires forall n :: n in after <==> n in mid || n in [key]
    requires forall n :: n in mid && n !in [key] ==> after[n] == mid[n]
    ensures forall n :: n in after <==> n in before || n in keys + [key]
    ensures forall n :: n in before && n !in keys + [key] ==> after[n] == before[n]
  {
  }

  /** The last upload to each name after one more upload. */
  lemma LastWinsStep(mid: map<string, Blob>, after: map<string, Blob>, uploads: seq<Upload>, u: Upload,
                     contentType: string -> string, now: int)
    requires forall n :: n in after <==> n in mid || n == u.key
    requires forall i :: 0 <= i < |uploads| ==> uploads[i].key in mid
    requires forall i :: 0 <= i < |uploads| && LastFor(uploads, i) ==>
      mid[uploads[i].key] == Blob(uploads[i].file.content, contentType(uploads[i].file.path), now)
    requires forall n :: n in mid && n != u.key ==> after[n] == mid[n]
    requires u.key in after && after[u.key] == Blob(u.file.content, contentType(u.file.path), now)
    ensures var ups := uploads + [u];
      forall i :: 0 <= i < |ups| && LastFor(ups, i) ==>
        ups[i].key in after && after[ups[i].key] == Blob(ups[i].file.content, contentType(ups[i].file.path), now)
  {
    var ups := uploads + [u];
    forall i | 0 <= i < |ups| && LastFor(ups, i)
      ensures ups[i].key in after && after[ups[i].key] == Blob(ups[i].file.content, contentType(ups[i].file.path), now)
    {
      if i < |uploads| {
        assert ups[|uploads|].key != ups[i].key;
        assert LastFor(uploads, i) by {
          forall j | i < j < |uploads|
            ensures uploads[j].key != uploads[i].key
          {
            assert ups[j] == uploads[j];
          }
        }
      }
    }
  }

  /** The listing part of `StoredStep`: one more upload appends its name iff
      the name is neither an old blob nor an earlier upload's. */
  lemma ListingStep(before: Container, mid: Container, after: Container, keys: seq<string>, key: string)
    requires forall n :: n in mid.blobs <==> n in before.blobs || n in keys
    requires mid.listing == AppendNew(before.listing, before.blobs.Keys, keys)
    requires after.listing == AppendNew(mid.listing, mid.blobs.Keys, [key])
    ensures after.listing == AppendNew(before.listing, before.blobs.Keys, keys + [key])
  {
    assert [key][..0] == [];
    assert (keys + [key])[..|keys|] == keys;
  }

  /** The last of the uploads is applied to the account the others leave. */
  lemma AppliedLast(account: Account, container: string, uploads: seq<Upload>,
                    contentType: string -> string, now: int)
    requires |uploads| > 0 && container in account
    ensures var mid := Applied(account, container, uploads[..|uploads| - 1], contentType, now);
      var u := uploads[|uploads| - 1];
      container in mid
      && Applied(account, container, uploads, contentType, now)
         == mid[container := PutBlob(mid[container], u.key, Blob(u.file.content, contentType(u.file.path), now))]
  {
  }

  /** One unconditional upload to an account's container stores exactly it. */
  lemma StoredByPut(account: Account, container: string, u: Upload, contentType: string -> string, now: int)
    requires container in account
    ensures Stored(account, account[container := PutBlob(account[container], u.key, Blob(u.file.content, contentType(u.file.path), now))],
                   container, [u], contentType, now)
  {
    PutStoresIn(account[container], u, contentType, now);
  }

  /** Making the uploads one after another stores them. */
  lemma {:induction false} AppliedStores(account: Account, container: string, uploads: seq<Upload>,
                                         contentType: string -> string, now: int)
    ensures Stored(account, Applied(account, container, uploads, contentType, now), container, uploads, contentType, now)
    decreases |uploads|
  {
    if |uploads| == 0 || container !in account {
      StoredNothing(account, container, uploads, contentType, now);
    } else {
      var init, u := uploads[..|uploads| - 1], uploads[|uploads| - 1];
      assert init + [u] == uploads;
      AppliedStores(account, container, init, contentType, now);
      AppliedStoresStep(account, container, init, u, contentType, now);
    }
  }

  /** No uploads, or none that can reach the container, store nothing. */
  lemma StoredNothing(account: Account, container: string, uploads: seq<Upload>,
                      contentType: string -> string, now: int)
    requires |uploads| == 0 || container !in account
    ensures Stored(account, Applied(account, container, uploads, contentType, now), container, uploads, contentType, now)
  {
    if |uploads| == 0 {
      assert KeyList(uploads) == [];
    }
  }

  /** The step of `AppliedStores`: one upload more. */
  lemma AppliedStoresStep(account: Account, container: string, init: seq<Upload>, u: Upload,
                          contentType: string -> string, now: int)
    requires container in account
    requires Stored(account, Applied(account, container, init, contentType, now), container, init, contentType, now)
    ensures Stored(account, Applied(account, container, init + [u], contentType, now), container, init + [u], contentType, now)
  {
    var mid := Applied(account, container, init, contentType, now);
    assert (init + [u])[..|init|] == init;
    AppliedLast(account, container, init + [u], contentType, now);
    StoredByPut(mid, container, u, contentType, now);
    StoredStep(account, mid, Applied(account, container, init + [u], contentType, now), container, init, u, contentType, now);
  }

  /** Apply the planned uploads in order, stopping at the first that fails. */
  method UploadAll(account: Account, container: string, plan: seq<Upload>, failing: set<string>,
                   contentType: string -> string, now: int)
    returns (after: Account, done: seq<Upload>, error: Option<MojoError>)
    ensures done <= plan
    ensures |done| > 0 ==> container in account
    ensures forall i :: 0 <= i < |done| ==> done[i].file.path !in failing
    ensures error.None? <==> done == plan
    ensures error.Some? ==>
      && |done| < |plan|
      && (container !in account || plan[|done|].file.path in failing)
      && error == Some(UploadFailure(plan[|done|].file.path))
    ensures after == Applied(account, container, done, contentType, now)
  {
    after, done, error := account, [], None;
    var i := 0;
    while i < |plan|
      invariant 0 <= i <= |plan| && done == plan[..i]
      invariant |done| > 0 ==> container in account
      invariant forall k :: 0 <= k < |done| ==> done[k].file.path !in failing
      invariant after == Applied(account, container, done, contentType, now)
    {
      var u := plan[i];
      match UploadFileToStorage(after, container, u.key, u.file.path, Some(u.file.content), failing, contentType, now)
      case Failure(e) =>
        error := Some(e);
        return;
      case Success(next) =>
        assert next == after[container := PutBlob(after[container], u.key, Blob(u.file.content, contentType(u.file.path), now))];
        assert (done + [u])[..|done|] == done;
        after, done := next, done + [u];
        i := i + 1;
    }
  }

  /** `execute`. `entry` is what lies at the goal's absolute, normalised `path`
      (`None`: nothing). A directory uploads every file the walk finds; anything
      else is uploaded as one file under `keyIfNull`. Every failure is the
      `MojoExecutionException` of the upload that failed. */
  method Execute(account: Account, container: string, path: string, entry: Option<Node>, key: Option<string>,
                 failing: set<string>, contentType: string -> string, now: int)
    returns (run: UploadRun)
    ensures run.error.Some? ==> run.error.value.MojoExecution?
    ensures Stored(account, run.account, container, run.uploads, contentType, now)
    ensures entry.Some? && entry.value.Dir? ==>
      var plan := Plan(Walk(entry.value, path), path, key);
      && run.uploads <= plan
      && (run.error.None? <==> run.uploads == plan)
      && (|run.uploads| > 0 ==> container in account)
      && (forall i :: 0 <= i < |run.uploads| ==> run.uploads[i].file.path !in failing)
      && (run.error.Some? ==>
            && |run.uploads| < |plan|
            && (container !in account || plan[|run.uploads|].file.path in failing)
            && run.error == Some(UploadFailure(plan[|run.uploads|].file.path)))
    ensures entry.None? ==>
      run == UploadRun(account, [], Some(UploadFailure(path)))
    ensures entry.Some? && entry.value.File? ==>
      var u := Upload(KeyIfNull(path, key), LocalFile(path, entry.value.content));
      && (run.error.None? <==> container in account && path !in failing)
      && (run.error.None? ==> run.uploads == [u])
      && (run.error.Some? ==> run.uploads == [] && run.error == Some(UploadFailure(path)))
  {
    if entry.Some? && entry.value.Dir? {
      var plan := Plan(Walk(entry.value, path), path, key);
      var after, done, error := UploadAll(account, container, plan, failing, contentType, now);
      AppliedStores(account, container, done, contentType, now);
      return UploadRun(after, done, error);
    }
    var content := if entry.Some? then Some(entry.value.content) else None;
    var name := KeyIfNull(path, key);
    match UploadFileToStorage(account, container, name, path, content, failing, contentType, now)
    case Failure(e) =>
      return UploadRun(account, [], Some(e));
    case Success(after) =>
      var u := Upload(name, LocalFile(path, content.value));
      UploadStores(account, container, name, path, content.value, failing, contentType, now, after);
      return UploadRun(after, [u], None);
  }

  // ---------------------------------------------------------------------------
  // Properties of the key names
  // ---------------------------------------------------------------------------

  /** The goal's path occurs in `path` only as its prefix. */
  predicate RootOnlyAsPrefix(path: string, root: string) {
    |path| >= |root| && !Contains(path[|root|..], root)
  }

  /** For a file below the goal's absolute path whose relative part `rel` does not
      repeat that path, the key is `rel`, or `rel` under the given key joined by
      one separator. */
  lemma KeyOfNestedPath(root: string, rel: string, key: Option<string>)
    requires |root| > 0 && root[0] == Separator && !Contains([Separator] + rel, root)
    ensures key.None? ==> GenerateKeyName(root + [Separator] + rel, root, key) == rel
    ensures key.Some? ==> GenerateKeyName(root + [Separator] + rel, root, key) == key.value + [Separator] + rel
  {
    RemoveRootPrefix(root, rel);
    assert (root + [Separator] + rel)[0] == Separator;
    assert ([Separator] + rel)[1..] == rel;
  }

  /** `replace` removes the goal's path wherever it occurs, so two different
      files can receive the same key: under `/a`, both `/a/b/a/c` and `/a/b/c`
      are uploaded as `b/c`, and the second upload overwrites the first. */
  lemma KeysCanCollide()
    ensures GenerateKeyName("/a/b/a/c", "/a", None) == "b/c"
    ensures GenerateKeyName("/a/b/c", "/a", None) == "b/c"
  {
    RootRemovedTwice();
    RootRemovedOnce();
    assert RemoveFirstSeparator("/b/c") == "b/c";
  }

  lemma LastSegmentKept()
    ensures RemoveAll("/c", "/a") == "/c"
  {
    var s := "/c";
    assert s[..2] != "/a" by {
      assert s[..2][1] == 'c';
    }
    assert s[1..] == "c";
    assert RemoveAll("c", "/a") == "c";
  }

  lemma RootRemovedTwice()
    ensures RemoveAll("/a/b/a/c", "/a") == "/b/c"
  {
    LastSegmentKept();
    assert RemoveAll("/a/c", "/a") == "/c";
    assert RemoveAll("b/a/c", "/a") == "b/c";
    assert RemoveAll("/b/a/c", "/a") == "/b/c";
  }

  lemma RootRemovedOnce()
    ensures RemoveAll("/a/b/c", "/a") == "/b/c"
  {
    LastSegmentKept();
    assert RemoveAll("b/c", "/a") == "b/c";
    assert RemoveAll("/b/c", "/a") == "/b/c";
  }

  /** Every file the walk of a directory at `root` finds lies strictly below
      `root`. */
  lemma WalkedPathShape(node: Node, root: string, f: LocalFile)
    requires WellFormed(node) && node.Dir? && f in Walk(node, root)
    requires |root| > 0 && root[|root| - 1] != Separator
    ensures |f.path| > |root| && f.path == root + [Separator] + f.path[|root| + 1..]
  {
    WalkMembership(node, root, f);
    var children := node.children;
    var i :| 0 <= i < |children| && FileAt(children[i], Join(root, children[i].name), f);
    EntryFileUnder(children, root, i, f);
    UnderJoin(f.path, root, children[i].name);
    StrictlyUnder(f.path, root);
  }

  /** Two different paths below the goal's path, neither repeating it, receive
      different keys. */
  lemma NestedKeysDiffer(root: string, p1: string, p2: string, key: Option<string>)
    requires |root| > 0 && root[0] == Separator && p1 != p2
    requires |p1| > |root| && p1 == root + [Separator] + p1[|root| + 1..] && RootOnlyAsPrefix(p1, root)
    requires |p2| > |root| && p2 == root + [Separator] + p2[|root| + 1..] && RootOnlyAsPrefix(p2, root)
    ensures GenerateKeyName(p1, root, key) != GenerateKeyName(p2, root, key)
  {
    var r1, r2 := p1[|root| + 1..], p2[|root| + 1..];
    assert p1[|root|..] == [Separator] + r1;
    assert p2[|root|..] == [Separator] + r2;
    KeyOfNestedPath(root, r1, key);
    KeyOfNestedPath(root, r2, key);
    if key.Some? {
      var k := key.value;
      assert (k + [Separator] + r1)[|k| + 1..] == r1;
      assert (k + [Separator] + r2)[|k| + 1..] == r2;
    }
  }

  /** Keys are unique within one upload: when the goal's absolute path occurs in
      no walked file's path except as its prefix, different files of a
      well-formed directory receive different keys, with or without a key
      prefix. */
  lemma WalkedKeysDistinct(node: Node, root: string, key: Option<string>)
    requires WellFormed(node) && node.Dir?
    requires |root| > 0 && root[0] == Separator && root[|root| - 1] != Separator
    requires forall f :: f in Walk(node, root) ==> RootOnlyAsPrefix(f.path, root)
    ensures Distinct(KeyList(Plan(Walk(node, root), root, key)))
  {
    var files := Walk(node, root);
    var keys := KeyList(Plan(files, root, key));
    WalkNoDuplicates(node, root);
    forall i, j | 0 <= i < j < |keys|
      ensures keys[i] != keys[j]
    {
      WalkedPathShape(node, root, files[i]);
      WalkedPathShape(node, root, files[j]);
      NestedKeysDiffer(root, files[i].path, files[j].path, key);
    }
  }

  /** With distinct keys every upload survives: each file's bytes are stored
      under its own key. */
  lemma DistinctKeysKeepEveryFile(before: Account, after: Account, container: string, uploads: seq<Upload>,
                                  contentType: string -> string, now: int)
    requires container in before && Stored(before, after, container, uploads, contentType, now)
    requires Distinct(KeyList(uploads))
    ensures forall i :: 0 <= i < |uploads| ==>
      && uploads[i].key in after[container].blobs
      && after[container].blobs[uploads[i].key].content == uploads[i].file.content
  {
    var keys := KeyList(uploads);
    forall i | 0 <= i < |uploads|
      ensures uploads[i].key in after[container].blobs
      ensures after[container].blobs[uploads[i].key].content == uploads[i].file.content
    {
      assert keys[i] in keys;
      assert LastFor(uploads, i) by {
        forall j | i < j < |uploads|
          ensures uploads[j].key != uploads[i].key
        {
          assert keys[i] != keys[j];
        }
      }
    }
  }

  /** A directory upload that ends without an exception leaves every walked file's
      bytes in the container under the key generated for it, provided the goal's
      path occurs in the files' paths only as their prefix. */
  lemma DirectoryUploadKeepsEveryFile(account: Account, container: string, path: string, node: Node,
                                      key: Option<string>, after: Account,
                                      contentType: string -> string, now: int)
    requires WellFormed(node) && node.Dir?
    requires |path| > 0 && path[0] == Separator && path[|path| - 1] != Separator
    requires forall f :: f in Walk(node, path) ==> RootOnlyAsPrefix(f.path, path)
    requires container in account
    requires Stored(account, after, container, Plan(Walk(node, path), path, key), contentType, now)
    ensures forall f :: f in Walk(node, path) ==>
      && GenerateKeyName(f.path, path, key) in after[container].blobs
      && after[container].blobs[GenerateKeyName(f.path, path, key)].content == f.content
  {
    var files := Walk(node, path);
    var plan := Plan(files, path, key);
    WalkedKeysDistinct(node, path, key);
    DistinctKeysKeepEveryFile(account, after, container, plan, contentType, now);
    forall f | f in files
      ensures GenerateKeyName(f.path, path, key) in after[container].blobs
      ensures after[container].blobs[GenerateKeyName(f.path, path, key)].content == f.content
    {
      var i :| 0 <= i < |files| && files[i] == f;
      assert plan[i].key == GenerateKeyName(f.path, path, key);
    }
  }

  /** The directory `/a` holding `b.txt` and `c/d.txt` is uploaded without a key
      as `b.txt` and `c/d.txt`, in that order. */
  lemma UploadExample(x: Content, y: Content)
    ensures KeyList(Plan(Walk(Dir("a", [File("b.txt", x), Dir("c", [File("d.txt", y)])]), "/a"), "/a", None))
      == ["b.txt", "c/d.txt"]
  {
    var tree := Dir("a", [File("b.txt", x), Dir("c", [File("d.txt", y)])]);
    ExampleWalk(x, y);
    var files := Walk(tree, "/a");
    assert files[0].path == "/a" + [Separator] + "b.txt";
    assert files[1].path == "/a" + [Separator] + "c/d.txt";
    AbsentFromShortText("/b.txt", "/a");
    AbsentFromShortText("/c/d.txt", "/a");
    KeyOfNestedPath("/a", "b.txt", None);
    KeyOfNestedPath("/a", "c/d.txt", None);
  }

  lemma ExampleWalk(x: Content, y: Content)
    ensures Walk(Dir("a", [File("b.txt", x), Dir("c", [File("d.txt", y)])]), "/a")
      == [LocalFile("/a/b.txt", x), LocalFile("/a/c/d.txt", y)]
  {
    assert Lead("/a") == "/a/" && Join("/a", "b.txt") == "/a/b.txt" && Join("/a", "c") == "/a/c";
    assert Lead("/a/c") == "/a/c/" && Join("/a/c", "d.txt") == "/a/c/d.txt";
    var inner := [File("d.txt", y)];
    assert WalkEntries(inner, "/a/c") == [LocalFile("/a/c/d.txt", y)] + WalkEntries(inner[1..], "/a/c");
    var sub := [Dir("c", inner)];
    assert WalkEntries(sub, "/a") == [LocalFile("/a/c/d.txt", y)] + WalkEntries(sub[1..], "/a");
    var entries := [File("b.txt", x)] + sub;
    assert entries[1..] == sub;
  }

  /** `/a` does not occur in a text with no `a`. */
  lemma AbsentFromShortText(s: string, p: string)
    requires p == "/a" && 'a' !in s
    ensures !Contains(s, p)
  {
    forall i: nat | i <= |s|
      ensures !OccursAt(s, p, i)
    {
      if i + 2 <= |s| {
        assert s[i..i + 2][1] == s[i + 1];
      }
    }
  }
}

=== FILE: wrappers.dfy ===
/** Failure-compatible wrappers: `Option` stands for a Java reference that may be
    `null`, `Result` for a call that either returns or throws. */
module Wrappers {

  datatype Option<+T> = None | Some(value: T) {

    predicate IsFailure() {
      None?
    }

    function PropagateFailure<U>(): Option<U>
      requires None?
    {
      None
    }

    function Extract(): T
      requires Some?
    {
      value
    }
  }

  datatype Result<+R, +E> = Success(value: R) | Failure(error: E) {

    predicate IsFailure() {
      Failure?
    }

    function PropagateFailure<U>(): Result<U, E>
      requires Failure?
    {
      Failure(error)
    }

    function Extract(): R
      requires Success?
    {
      value
    }
  }
}
